=== FILE: README.md ===
# NMEAMovie in Dafny

NMEAMovie reads NMEA 0183 sentences from a GPS receiver, one per line, and
turns them into the frames of a movie. It uses three kinds of sentence:

- RMC sentences supply the date.
- GSV ("satellites in view") sentences supply the satellites' elevation, azimuth and signal-to-noise ratio.
- GGA fix sentences supply positions.

Each accepted fix is counted in a cumulative 2-D histogram over a latitude/longitude bounding box. The fix is also added to the current frame's point list.

Time is cut into bins of `frameLength` seconds. When a fix falls in a later time bin than the last flush, the frame in progress is flushed. A flush writes five files:

- the heat map of the whole histogram;
- the frame's points;
- a gnuplot script that overlays the points of up to three previous frames;
- a satellite snapshot;
- a polar gnuplot script for that snapshot.

The model follows `src/NMEAMovie.java`. It covers:

- the main loop body (lines 93-286);
- the start-up computations it depends on (lines 64-91);
- `toDegrees`;
- the `Counter` and `SV` records.

The loop is a state machine. `Movie.Step` handles one split sentence and `Movie.StepLine` one raw line. `Movie.Run` handles the rest of the input and `Movie.Convert` the whole conversion. The files a flush writes are returned as a `Frames.FrameFiles` value.

Every exception the loop can throw becomes an explicit `Fatal` result. That covers:

- a missing field;
- an unparsable number or timestamp;
- a zero frame length;
- a bin index outside the counter array;
- a negative array size at start-up.

A `Fatal` result carries the frame that was written before the exception, if there was one.

Modules:

- `Basics`: `Option`, `Result`, and the exception kinds.
- `JavaNum`: Java's 32-bit `int` wrap-around, truncating integer division, and the saturating `(int)` cast of a `double`.
- `JavaText`: `lastIndexOf`, `split(",")` (which drops trailing empty fields), `%06d`, `Integer.parseInt` and the decimal part of `Double.parseDouble`.
- `Nmea`: line decoding, `toDegrees`, reading GSV records and storing them last-write-wins, and reading the fields of a GGA sentence in the order the code reads them.
- `Geometry`: the array shape and origin, the bin of a position, the counters, and the heat-map file in row-major order.
- `Frames`: file names, the two plotting scripts reduced to the files they name, and the frame written by a flush.
- `Movie`: configuration, loop state, `Init`, `Step`, `Run`, `Convert`.
- `MovieProperties`: properties of the loop that relate several calls.

**Bin indices.** The code computes bin indices and the grid shape with Java's `(int)` cast, which truncates toward zero rather than flooring. The model truncates as the code does.

- `Geometry.UnalignedUpperEdgeOverruns` shows the first consequence: when the box edges are not multiples of the bin size, a fix inside the box can fall outside the array.
- `Geometry.NegativeCoordinateOverruns` shows the second: with negative coordinates, even a box whose lower corner is aligned can overrun.
- In both cases the code throws `ArrayIndexOutOfBoundsException`. `Geometry.AlignedBoxBinsInGrid` and `MovieProperties.AlignedBoxNeverOverruns` give a sufficient condition for no overrun: both corners of the box lie on bin boundaries.

**Empty trailing fields.** `String.split(",")` drops trailing empty fields. A GGA sentence whose fields from position 8 onward are empty therefore has fewer than nine fields and is skipped. `MovieProperties.EmptyTailFixIsSkipped` proves this. A GGA sentence such as `$GPGGA,120000,5330.00,N,00600.00,W,1,08,,,,,,,*7A` is skipped.

**Missing fields are fatal.** A fix sentence is fatal in two cases:

- no RMC date has been seen and the timestamp parser rejects the date-less text;
- the sentence has exactly nine fields, because the code reads field 9 (the altitude) before it applies the filters.

**Time bin.** The time bin is `(int)(millis / (1000L * frameLength))`. That is a truncating `long` division narrowed to 32 bits, not a floor of seconds.

## Model

| member | source | states |
|---|---|---|
| JavaNum.Wrap32 | src/NMEAMovie.java:150 | narrowing to `int` yields a 32-bit value congruent to the input modulo 2^32, and leaves 32-bit values unchanged |
| JavaNum.Quot | src/NMEAMovie.java:150 | Java division: the remainder is smaller than the divisor in magnitude and has the sign of the dividend |
| JavaNum.Inc32IsWrap32 | src/NMEAMovie.java:64-65 | the `+ 1` of the array shape is Java `int` addition: the low 32 bits of the successor |
| JavaNum.Sub32IsWrap32 | src/NMEAMovie.java:274 | the bin index less the origin's is Java `int` subtraction: the low 32 bits of the difference |
| JavaNum.D2I | src/NMEAMovie.java:271-272 | the `(int)` cast of a double truncates toward zero and saturates at the 32-bit bounds |
| JavaNum.D2IMonotone | src/NMEAMovie.java:271-272 | the `(int)` cast never reverses the order of two coordinates |
| JavaText.LastIndexOf | src/NMEAMovie.java:95 | the result is the position of the last `*`, or -1 exactly when there is none |
| JavaText.JoinPieces | src/NMEAMovie.java:101 | joining the comma-separated pieces of a line gives back the line |
| JavaText.PiecesJoin | src/NMEAMovie.java:101 | cutting a comma-joined list of comma-free fields gives back the fields |
| JavaText.Split | src/NMEAMovie.java:101 | `split(",")` gives comma-free fields; an empty line gives one empty field; otherwise the fields are the comma-separated pieces up to the last non-empty one, and every piece dropped is empty |
| JavaText.SplitJoin | src/NMEAMovie.java:101 | joining the fields back with commas gives the line up to a final run of commas, so splitting loses nothing but trailing commas |
| JavaText.Pad6 | src/NMEAMovie.java:155 | `%06d` writes digits denoting the frame number, at least six of them |
| JavaText.Pad6Width | src/NMEAMovie.java:155 | below one million the padded frame number is exactly six characters |
| JavaText.ParseIntText | src/NMEAMovie.java:259 | `Integer.parseInt` reads back every 32-bit integer from its decimal text |
| JavaText.ParseInt | src/NMEAMovie.java:120 | `new Integer`/`Integer.parseInt` succeeds exactly on an optional sign followed by at least one digit whose signed value fits in 32 bits, and then yields that value |
| JavaText.ParseDouble | src/NMEAMovie.java:121-123 | `Double.parseDouble` succeeds only on text that, once trimmed, holds a digit and nothing but digits, signs, a point, `e`/`E` and an `f`/`F`/`d`/`D` suffix letter; text with a leading minus reads as a value at most zero, any other as a value at least zero |
| JavaText.ParseWholeNumber | src/NMEAMovie.java:121-123 | `Double.parseDouble` of plain digit text yields the whole number the digits denote |
| JavaText.ParseFixedPoint | src/NMEAMovie.java:250 | `Double.parseDouble` of plain `ddmm.mmm` text yields the number the digits denote |
| Nmea.DecodeLine | src/NMEAMovie.java:95-101 | a line is skipped exactly when it has no `*`; otherwise the fields are the split of the text before the last `*` |
| Nmea.DecodeIgnoresChecksum | src/NMEAMovie.java:95-101 | whatever follows the last `*` does not change the fields |
| Nmea.ToDegrees | src/NMEAMovie.java:298-302 | below the overflow limit, a non-negative `ddmm.mmm` value converts to its whole hundreds as degrees plus the remaining minutes over 60 |
| Nmea.ToDegreesExample | src/NMEAMovie.java:291-302 | 5330.00 converts to 53.5 degrees, as the method's documentation says |
| Nmea.ToDegreesMonotonic | src/NMEAMovie.java:298-302 | on values with fewer than 60 minutes the conversion preserves order |
| Nmea.ToDegreesNotMonotonicOnBadMinutes | src/NMEAMovie.java:298-302 | with 60 or more minutes the conversion is not monotonic: 5399 converts above 5400 |
| Nmea.GsvRecordCount | src/NMEAMovie.java:115-116 | every field of every group read lies inside the sentence; for a sentence of at least four fields the last field of the next group would lie outside it, so every complete group is read |
| Nmea.ParseSat | src/NMEAMovie.java:118-126 | a group is unreadable exactly when its id is not an integer or its elevation, azimuth or SNR is not a number; a readable group holds those four values |
| Nmea.StoreSats | src/NMEAMovie.java:116-131 | storing never removes a satellite, and every satellite it adds is reported by some readable group |
| Nmea.StoreSatsAppend | src/NMEAMovie.java:116-131 | storing a list of groups is storing its front and then its back |
| Nmea.UnreadableGroupSkipped | src/NMEAMovie.java:124-125 | an unreadable group is skipped: the map is the same as with that group removed, so the groups before and after it are stored |
| Nmea.StoreSatsLastWins | src/NMEAMovie.java:116-131 | after storing, a satellite is present iff it was before or a readable group reports it; the last readable group for it wins; an unreadable group is skipped |
| Nmea.StoreSatsKeyed | src/NMEAMovie.java:119-124 | the map keeps every satellite under its own id |
| Nmea.ReadFix | src/NMEAMovie.java:250-260 | the fix's fields are read in the code's order: it fails with a number-format error on an unreadable field, and with an index error exactly when all three fields parse and the altitude field is missing; a read fix has the converted latitude and longitude, negated for `S` and `W`, and the satellite count |
| Nmea.SouthWestFixExample | src/NMEAMovie.java:250-260 | `5330.00,S` reads as -53.5 degrees, `00600.00,W` as -6.0 degrees and `08` as 8 satellites |
| Geometry.Hit | src/NMEAMovie.java:274-280 | a hit creates a missing counter at 1 or increments an existing one, and changes no other counter |
| Geometry.DimsOf | src/NMEAMovie.java:64-69 | the array has one more row than the latitude span in bins truncated toward zero (likewise columns); a span too wide for `int` wraps to the smallest `int`, and one too negative saturates to one above it; the origin is the lower corner in bins truncated toward zero, saturated at the 32-bit bounds |
| Geometry.BinOf | src/NMEAMovie.java:271-274 | the counter index is the truncated bin of the coordinate less the origin's bin whenever that fits in 32 bits, and it is always a 32-bit value |
| Geometry.NegativeLowerCornerOrigin | src/NMEAMovie.java:68-69 | a lower corner at -1.5 in 1-degree bins gives origin bin -1, not the floor -2 |
| Geometry.AlignedAxisIndexInRange | src/NMEAMovie.java:64-69 | on an axis whose ends are bin boundaries, every coordinate in range gets an index in `[0, count)` |
| Geometry.AlignedBoxBinsInGrid | src/NMEAMovie.java:271-274 | with both corners on bin boundaries, every position in the box indexes inside the array |
| Geometry.UnalignedUpperEdgeOverruns | src/NMEAMovie.java:271-274 | with latitudes 0.5..1.0 in 1-degree bins, a fix at 1.0 lies in the box but indexes row 1 of a one-row array |
| Geometry.NegativeCoordinateOverruns | src/NMEAMovie.java:271-274 | truncation toward zero lets a negative in-box coordinate index past the array |
| Geometry.HeatMap | src/NMEAMovie.java:159-169 | the heat-map file has one line per cell of the array, none for a negative dimension |
| Geometry.HeatMapSize | src/NMEAMovie.java:159-169 | the heat-map file has `rows * cols` lines |
| Geometry.HeatMapAt | src/NMEAMovie.java:159-167 | line `j * cols + i` is cell `(j, i)`, with the bin indices plus the origin and the count, or -1 for a null counter |
| Geometry.HeatMapLineAt | src/NMEAMovie.java:159-167 | every line of the heat-map file belongs to some cell of the array |
| Geometry.HeatMapCountsValid | src/NMEAMovie.java:166 | every count written is -1 or at least 1 |
| Geometry.HeatMapShowsCounters | src/NMEAMovie.java:161-166 | every existing counter appears at its row-major line with its count |
| Frames.FileNameInjective | src/NMEAMovie.java:155-156 | different frame numbers never share a file name |
| Frames.PlotScript | src/NMEAMovie.java:181-222 | the plot script loads `movie.gp`, writes only this frame's image, plots only this frame's heat map, and ends with this frame's points and the satellite chart inset; it has 6 to 9 lines |
| Frames.SvScript | src/NMEAMovie.java:235-242 | the satellite script loads `sv_chart.gp`, writes only this frame's chart image, and plots only this frame's satellite data |
| Frames.EmitFrame | src/NMEAMovie.java:153-242 | a flushed frame carries its number, the frame's points and satellites, the heat map of the whole grid with a line for every cell, and this frame's plot and satellite scripts, linked through the chart image |
| Frames.RecentOverlayFiles | src/NMEAMovie.java:193-218 | the plot overlays the point files of the last `min(n, 4)` frames up to `n`, in order |
| Frames.PlotReferencesRecentFrames | src/NMEAMovie.java:193-218 | the plot overlays the point files of frames `max(1, n-3) .. n`, oldest first, ending with its own |
| Frames.PlotOverlayFiles | src/NMEAMovie.java:181-222 | the overlays of the plot script are the `n-3`, `n-2`, `n-1` point files, each only when that frame exists, followed by the frame's own |
| Frames.ScriptsAgree | src/NMEAMovie.java:220-241 | the plot insets the image the satellite script writes, and both scripts name this frame's files |
| Movie.Init | src/NMEAMovie.java:64-91 | start-up fails with a negative array size exactly when a dimension is negative; otherwise it starts with the computed array shape at frame 1 and time bin 0, with nothing counted, no points or satellites, and an empty date |
| Movie.TimeBin | src/NMEAMovie.java:150 | the time bin fails exactly on a zero frame length; otherwise it is the 32-bit value congruent modulo 2^32 to the truncated quotient of the millisecond count by the frame length in milliseconds, and equal to it when the quotient fits |
| Movie.CountedKeepsInv | src/NMEAMovie.java:274-283 | counting an in-box point on an in-array cell keeps the loop invariant and lowers no counter |
| Movie.Place | src/NMEAMovie.java:249-283 | counting a fix keeps the frame bookkeeping and the invariant, and lowers no counter; it fails exactly on an unreadable field or an admitted fix outside the array |
| Movie.Fix | src/NMEAMovie.java:147-283 | a flush writes the current frame's state under the current number and advances the number by one; the invariant is kept and the time bin never decreases |
| Movie.FlushAndPlace | src/NMEAMovie.java:152-283 | a frame is written exactly when the bin is past the last one, and it is the frame built from the current state; the fix can then fail only on a field or the array index; the invariant is kept |
| Movie.Step | src/NMEAMovie.java:102-145 | a sentence is skipped exactly when it is short, or is neither RMC, GSV nor a usable fix; only fix sentences flush; the invariant is kept |
| Movie.StepLine | src/NMEAMovie.java:95-104 | a line without `*` is skipped; any frame written is the current frame; the invariant is kept and counters never drop |
| Movie.Run | src/NMEAMovie.java:93-286 | a run fails only with one of the loop's exceptions, and a clean run writes at most one frame per line |
| Movie.Convert | src/NMEAMovie.java:76 | the conversion fails with a negative array size exactly when a dimension is negative, and then writes nothing |
| MovieProperties.StepLineIgnoresChecksum | src/NMEAMovie.java:95-101 | a line is processed as the split of its text before the last `*` |
| MovieProperties.EmptyTailFixIsSkipped | src/NMEAMovie.java:101-141 | a GGA sentence with empty fields from position 8 on is skipped |
| MovieProperties.SplitJoinDropsEmptyTail | src/NMEAMovie.java:101 | splitting joined fields drops exactly their empty tail and keeps the sentence type first |
| MovieProperties.RmcRecordsDateOnly | src/NMEAMovie.java:107-111 | an RMC sentence records field 9 as the date and changes nothing else; with fewer than ten fields it throws |
| MovieProperties.GsvStoresSatellites | src/NMEAMovie.java:114-133 | a GSV sentence changes only the satellite map, last readable record wins |
| MovieProperties.GsvSkipsUnreadableGroup | src/NMEAMovie.java:116-131 | a group with an unreadable field is skipped while the groups before and after it are stored |
| MovieProperties.GsvSecondGroupUnreadable | src/NMEAMovie.java:116-131 | with groups `7,4,9,3` and one whose SNR is the non-number `x`, only satellite 7 is stored |
| MovieProperties.GsvTrailingEmptySnr | src/NMEAMovie.java:101-131 | a GSV line with groups `7,4,9,3` and a second group whose SNR, the last field, is empty loses that field to `split`, so only one group is read and only satellite 7 is stored |
| MovieProperties.FlushIffTimeBinAdvances | src/NMEAMovie.java:150-169 | a frame is written iff the time bin is past the last one; it holds the whole grid and the frame's points and satellites |
| MovieProperties.FlushStartsNextFrame | src/NMEAMovie.java:179-283 | after a flush the satellites are cleared, the number goes up by one, the time bin is the new one, and the points hold at most the triggering fix; without one the number, time bin and satellites are unchanged and only the triggering fix may be added to the points |
| MovieProperties.UndatedFixIsFatal | src/NMEAMovie.java:147 | before any RMC date, a parser that needs the date makes the fix fatal without writing anything |
| MovieProperties.NonFatalFixHasTime | src/NMEAMovie.java:147-150 | a fix sentence that does not throw had a readable timestamp and a non-zero frame length |
| MovieProperties.PlaceAfterBase | src/NMEAMovie.java:152-283 | the fix is counted into the post-flush state, which has the same grid and has its points emptied by a flush |
| MovieProperties.RejectedFixChangesNoCounter | src/NMEAMovie.java:262-268 | a fix the satellite or box filter rejects changes no counter and adds no point |
| MovieProperties.AcceptedFixHitsOneCell | src/NMEAMovie.java:271-283 | an admitted fix increments exactly its own cell and is appended to the frame's points |
| MovieProperties.AlignedBoxNeverOverruns | src/NMEAMovie.java:266-274 | with an aligned box a readable fix never throws an index error |
| MovieProperties.FlushedFrameWellFormed | src/NMEAMovie.java:153-242 | every flushed frame has a full-size heat map with valid counts, in-box points, keyed satellites, and overlays of the recent frames |
| MovieProperties.HeatMapMonotone | src/NMEAMovie.java:159-169 | counters that only grow give heat maps whose counts only grow, line by line |
| MovieProperties.RunFrameNumbers | src/NMEAMovie.java:154-244 | frames are written with consecutive numbers from the current one, and a clean run ends one past the last |
| MovieProperties.RunKeepsInvariants | src/NMEAMovie.java:93-286 | a run keeps the invariant and the array shape, never lowers the time bin, and never resets a counter |
| MovieProperties.RunFramesWellFormed | src/NMEAMovie.java:93-286 | every frame a run writes is well formed |
| MovieProperties.RunHeatMapsCumulative | src/NMEAMovie.java:159-280 | the histogram is cumulative: each frame's heat map lies between the starting and final grids, and later frames count at least as much as earlier ones |
| MovieProperties.ConvertWritesNumberedFrames | src/NMEAMovie.java:81-244 | a whole conversion writes well-formed frames numbered 1, 2, 3, ... without gaps |

## Left out

- Command-line parsing (lines 27-61) is not modelled. Its values are the fields of `Movie.Config`.
- Reading standard input and writing files are not modelled. The input is a list of lines, and each flush returns its files as a value.
- The "Writing frame" message on standard error is not modelled, and neither is the stack trace printed for a GSV index error. That index error cannot happen: `Nmea.GsvRecordCount` shows every field of every group exists.
- `SimpleDateFormat` is not modelled. Parsing `ddMMyy-HHmmss` and formatting `yyyy-MM-dd HH:mm:ss` are the configuration functions `parseTimestamp` and `formatTitle`. Time zones and lenient parsing live inside them.
- IEEE doubles are idealised as exact reals. Rounding, `Infinity` and `NaN` are not modelled.
- A zero bin size is excluded by `ValidBox`. In Java it gives infinities and saturated casts, or NaN and a cast to 0 when both ends of that axis coincide.
- `Double.toString` is not modelled. Coordinates in the heat-map and points files are kept as numbers.
- `Double.parseDouble` covers decimal text: characters up to U+0020 are trimmed from both ends, then an optional sign, digits with an optional point and exponent, and an optional `f`/`F`/`d`/`D` suffix, which is dropped. Hexadecimal text, `NaN` and `Infinity` are treated as unreadable.
- JavaText.ParseInt: only ASCII digits are accepted; Java also accepts other Unicode decimal digits, such as U+0660..U+0669.
- Nmea.ToDegrees: the contract describes the value only for non-negative inputs below 2,000,000,000, where neither the cast nor `degrees * 100` overflows; the function still computes the truncating, wrapping result for every input.
- JavaText.ParseDouble: the contract states which characters readable text may hold and the sign of its value, not the full grammar (where a sign may stand, a single point, where the exponent goes); the exact value is stated by `JavaText.ParseFixedPoint` and `JavaText.ParseWholeNumber` for the plain decimal text NMEA fields carry, not for text with an exponent or suffix.
- The order in which `HashMap.values()` lists satellites is not modelled. The satellite file is the map itself; its text columns are id, azimuth, elevation and SNR, with azimuth before elevation, the reverse of the order the GSV sentence gives them in.
- The gnuplot text is not modelled: `using` clauses, point radius, transparency and inset placement. Each script line is reduced to the files it names and the overlay colour.
- The `OutOfMemoryError` that allocating a huge but non-negative array shape raises at line 76 is not modelled. `Movie.Init` succeeds for every non-negative shape.
- The frame number and the `Counter` fields are unbounded naturals, so their 32-bit overflow after 2^31 frames or hits is not modelled.
- `totalCount` is not modelled. It is never read.
- The parsed altitude value is not modelled. It is never used; only the exception its parsing can throw is kept.
- The last frame is never flushed: the code writes nothing at the end of input. The model keeps this, and `Movie.Run` returns that frame's state as `final`.
- The `SV` class's boxed `Integer`/`Double` fields are the plain fields of `Nmea.Sat`. A null field cannot arise, because every stored record is fully parsed.

=== FILE: basics.dfy ===
/** Optional values, results, and the Java runtime exceptions that end a run. */
module Basics {

  /** A value that may be missing, as a Java reference that may be null. */
  datatype Option<+T> = None | Some(value: T)

  /** The uncaught exceptions of the converter; each one aborts the whole run. */
  datatype Failure =
    | IndexOutOfBounds    // ArrayIndexOutOfBoundsException
    | NumberFormat        // NumberFormatException
    | UnparsableTimestamp // ParseException from the timestamp format
    | DivisionByZero      // ArithmeticException
    | NegativeArraySize   // NegativeArraySizeException

  /** Either a value or the exception that was thrown instead. */
  datatype Result<+T> = Ok(value: T) | Err(failure: Failure)

  function Min(a: int, b: int): int { if a <= b then a else b }

  function Max(a: int, b: int): int { if a <= b then b else a }
}

=== FILE: frames.dfy ===
/** The five files written for each frame, as data: file names built from the
    zero-padded frame number, the heat-map and point data, the satellite
    snapshot, and the two plotting scripts reduced to the files they load,
    produce and plot. */
module Frames {
  import opened Basics
  import opened JavaText
  import opened Geometry
  import opened Nmea

  /** One accepted fix, in signed decimal degrees: a line of the points file. */
  datatype Point = Point(lat: real, lng: real)

  /** The lines of a generated plotting script that matter: which base script it
      loads, which image it writes, its title, and which files it plots. */
  datatype PlotLine =
    | Load(script: string)
    | Output(image: string)
    | Title(text: string)
    | HeatMapImage(data: string)
    | PointOverlay(data: string, colour: string)
    | SatelliteInset(image: string)
    | SatelliteCircles(data: string)
    | SatelliteLabels(data: string)

  /** The files of one frame: `fNNNNNN.hm.dat`, `fNNNNNN.pt.dat`, `fNNNNNN.gp`,
      `fNNNNNN.sv.dat` and `fNNNNNN.sv.gp`. The satellite file has one line per
      map entry, in no particular order, with the columns id, azimuth,
      elevation, SNR: azimuth comes before elevation, the reverse of the
      sentence's field order. */
  datatype FrameFiles = FrameFiles(
    number: nat,
    heatMap: seq<HeatLine>,
    points: seq<Point>,
    plot: seq<PlotLine>,
    satellites: map<int, Sat>,
    svPlot: seq<PlotLine>)

  /** `"f" + String.format("%06d", n) + suffix`. */
  function FileName(n: nat, suffix: string): string
  {
    "f" + Pad6(n) + suffix
  }

  /** Different frames never share a file name. */
  lemma FileNameInjective(m: nat, n: nat, suffix: string)
    requires FileName(m, suffix) == FileName(n, suffix)
    ensures m == n
  {
    var a, b := FileName(m, suffix), FileName(n, suffix);
    assert |Pad6(m)| == |Pad6(n)|;
    assert Pad6(m) == a[1..|a| - |suffix|];
    assert Pad6(n) == b[1..|b| - |suffix|];
  }

  function PointsFile(n: nat): string { FileName(n, ".pt.dat") }

  /** The previous frames whose points the plot of frame `n` overlays: `n-3`,
      `n-2`, `n-1`, each only when it is a frame number. */
  function PriorOverlays(n: nat): (r: seq<PlotLine>)
    ensures |r| <= 3
    ensures forall k :: 0 <= k < |r| ==> r[k].PointOverlay?
  {
    (if n > 3 then [PointOverlay(PointsFile(n - 3), "#444444")] else [])
    + (if n > 2 then [PointOverlay(PointsFile(n - 2), "#888888")] else [])
    + (if n > 1 then [PointOverlay(PointsFile(n - 1), "#cccccc")] else [])
  }

  /** `fNNNNNN.gp`: load `movie.gp`, write `fNNNNNN.png` with the given title,
      plot the heat map, the points of up to three previous frames and of this
      one, and inset the satellite chart image. */
  function PlotScript(n: nat, title: string): (r: seq<PlotLine>)
    ensures 6 <= |r| <= 9
    ensures r[0] == Load("movie.gp")
    ensures forall k :: 0 <= k < |r| && r[k].Output? ==> r[k].image == FileName(n, ".png")
    ensures forall k :: 0 <= k < |r| && r[k].HeatMapImage? ==> r[k].data == FileName(n, ".hm.dat")
    ensures r[|r| - 2] == PointOverlay(PointsFile(n), "#ffffff")
    ensures r[|r| - 1] == SatelliteInset(FileName(n, ".sv.png"))
  {
    var head, prior, tail := PlotHead(n, title), PriorOverlays(n), PlotTail(n);
    var r := head + prior + tail;
    assert forall k :: 0 <= k < |r| ==>
             r[k] == if k < 4 then head[k] else if k < 4 + |prior| then prior[k - 4] else tail[k - 4 - |prior|];
    r
  }

  /** The lines before the overlays: base script, image, title, heat map. */
  function PlotHead(n: nat, title: string): seq<PlotLine>
  {
    [Load("movie.gp"), Output(FileName(n, ".png")), Title(title), HeatMapImage(FileName(n, ".hm.dat"))]
  }

  /** The lines after the earlier frames' overlays: this frame's points, then
      the satellite chart inset. */
  function PlotTail(n: nat): seq<PlotLine>
  {
    [PointOverlay(PointsFile(n), "#ffffff"), SatelliteInset(FileName(n, ".sv.png"))]
  }

  /** `fNNNNNN.sv.gp`: load `sv_chart.gp`, write `fNNNNNN.sv.png`, and plot the
      satellite data as circles and as id labels. */
  function SvScript(n: nat): (r: seq<PlotLine>)
    ensures |r| == 4 && r[0] == Load("sv_chart.gp")
    ensures forall k :: 0 <= k < |r| && r[k].Output? ==> r[k].image == FileName(n, ".sv.png")
    ensures forall k :: 0 <= k < |r| && (r[k].SatelliteCircles? || r[k].SatelliteLabels?)
                        ==> r[k].data == FileName(n, ".sv.dat")
  {
    var data := FileName(n, ".sv.dat");
    [Load("sv_chart.gp"), Output(FileName(n, ".sv.png")), SatelliteCircles(data), SatelliteLabels(data)]
  }

  /** The data files of the point overlays of a script, in plotting order. */
  function Overlays(script: seq<PlotLine>): (r: seq<string>)
    ensures |r| <= |script|
  {
    if |script| == 0 then []
    else
      var rest := Overlays(script[1..]);
      if script[0].PointOverlay? then [script[0].data] + rest else rest
  }

  lemma {:induction false} OverlaysAppend(a: seq<PlotLine>, b: seq<PlotLine>)
    ensures Overlays(a + b) == Overlays(a) + Overlays(b)
    decreases |a|
  {
    if |a| == 0 {
      assert a + b == b;
    } else {
      assert (a + b)[0] == a[0];
      assert (a + b)[1..] == a[1..] + b;
      OverlaysAppend(a[1..], b);
      if a[0].PointOverlay? {
        assert [a[0].data] + (Overlays(a[1..]) + Overlays(b)) == ([a[0].data] + Overlays(a[1..])) + Overlays(b);
      }
    }
  }

  lemma {:induction false} NoOverlays(script: seq<PlotLine>)
    requires forall k :: 0 <= k < |script| ==> !script[k].PointOverlay?
    ensures Overlays(script) == []
    decreases |script|
  {
    if |script| > 0 {
      NoOverlays(script[1..]);
    }
  }

  /** The frames a plot of frame `n >= 1` shows points of: the up to four most
      recent frame numbers, ending with `n`, in increasing order. */
  function RecentFrames(n: nat): (r: seq<nat>)
    requires n >= 1
  {
    var count := Min(n, 4);
    seq(count, k requires 0 <= k < count => n - count + 1 + k)
  }

  /** The plot of frame `n` overlays the point files of frames
      `max(1, n-3) .. n`, oldest first: every referenced frame lies in `[1, n]`,
      and the last is the frame's own file. */
  lemma PlotReferencesRecentFrames(n: nat, title: string)
    requires n >= 1
    ensures |Overlays(PlotScript(n, title))| == |RecentFrames(n)|
    ensures forall k :: 0 <= k < |RecentFrames(n)| ==>
              1 <= RecentFrames(n)[k] <= n
              && Overlays(PlotScript(n, title))[k] == PointsFile(RecentFrames(n)[k])
    ensures Overlays(PlotScript(n, title))[|RecentFrames(n)| - 1] == PointsFile(n)
  {
    RecentOverlayFiles(n, title);
  }

  /** The overlay files of the plot, as a list indexed like `RecentFrames`. */
  lemma RecentOverlayFiles(n: nat, title: string)
    requires n >= 1
    ensures var c := Min(n, 4);
            Overlays(PlotScript(n, title)) == seq(c, k requires 0 <= k < c => PointsFile(n - c + 1 + k))
  {
    PlotOverlayFiles(n, title);
    RecentList(PointsFile, n);
  }

  /** Any per-frame item of the recent frames, listed case by case. */
  lemma RecentList<T>(f: nat -> T, n: nat)
    requires n >= 1
    ensures var c := Min(n, 4);
            seq(c, k requires 0 <= k < c => f(n - c + 1 + k))
            == (if n > 3 then [f(n - 3)] else [])
             + (if n > 2 then [f(n - 2)] else [])
             + (if n > 1 then [f(n - 1)] else [])
             + [f(n)]
  {
    var c := Min(n, 4);
    var items := seq(c, k requires 0 <= k < c => f(n - c + 1 + k));
    if n == 1 {
      assert items == [f(1)];
    } else if n == 2 {
      assert items == [f(1), f(2)];
    } else if n == 3 {
      assert items == [f(1), f(2), f(3)];
    } else {
      assert items == [f(n - 3), f(n - 2), f(n - 1), f(n)];
    }
  }

  /** The overlays of the plot script, read off its lines. */
  lemma PlotOverlayFiles(n: nat, title: string)
    ensures Overlays(PlotScript(n, title))
         == (if n > 3 then [PointsFile(n - 3)] else [])
          + (if n > 2 then [PointsFile(n - 2)] else [])
          + (if n > 1 then [PointsFile(n - 1)] else [])
          + [PointsFile(n)]
  {
    var head, prior, tail := PlotHead(n, title), PriorOverlays(n), PlotTail(n);
    assert PlotScript(n, title) == head + prior + tail;
    OverlaysAppend(head + prior, tail);
    OverlaysAppend(head, prior);
    HeadOverlays(n, title);
    PriorOverlayFiles(n);
    TailOverlays(n);
  }

  /** The overlays of the earlier frames, read off their lines. */
  lemma PriorOverlayFiles(n: nat)
    ensures Overlays(PriorOverlays(n))
         == (if n > 3 then [PointsFile(n - 3)] else [])
          + (if n > 2 then [PointsFile(n - 2)] else [])
          + (if n > 1 then [PointsFile(n - 1)] else [])
  {
    var o3 := if n > 3 then [PointOverlay(PointsFile(n - 3), "#444444")] else [];
    var o2 := if n > 2 then [PointOverlay(PointsFile(n - 2), "#888888")] else [];
    var o1 := if n > 1 then [PointOverlay(PointsFile(n - 1), "#cccccc")] else [];
    OverlaysAppend(o3 + o2, o1);
    OverlaysAppend(o3, o2);
    OneOverlay(o3);
    OneOverlay(o2);
    OneOverlay(o1);
  }

  lemma HeadOverlays(n: nat, title: string)
    ensures Overlays(PlotHead(n, title)) == []
  {
    NoOverlays(PlotHead(n, title));
  }

  lemma TailOverlays(n: nat)
    ensures Overlays(PlotTail(n)) == [PointsFile(n)]
  {
    var tail := PlotTail(n);
    assert tail == [tail[0]] + [tail[1]];
    OverlaysAppend([tail[0]], [tail[1]]);
    OneOverlay([tail[0]]);
    OneOverlay([tail[1]]);
  }

  lemma OneOverlay(script: seq<PlotLine>)
    requires |script| <= 1
    ensures Overlays(script) == if |script| == 1 && script[0].PointOverlay? then [script[0].data] else []
  {
    if |script| == 1 {
      assert script[1..] == [];
    }
  }

  /** The two scripts of a frame fit together: the plot insets exactly the image
      the satellite script writes, and each script plots this frame's files. */
  lemma ScriptsAgree(n: nat, title: string)
    ensures PlotScript(n, title)[|PlotScript(n, title)| - 1] == SatelliteInset(SvScript(n)[1].image)
    ensures PlotScript(n, title)[3] == HeatMapImage(FileName(n, ".hm.dat"))
    ensures SvScript(n)[2].data == FileName(n, ".sv.dat")
  {
  }

  /** The files written when frame `s.frame` is flushed: the whole cumulative
      grid, the frame's points, the satellite snapshot, and both scripts. */
  function EmitFrame(d: Dims, grid: Counters, points: seq<Point>, sats: map<int, Sat>, n: nat, title: string): (r: FrameFiles)
    ensures r.number == n && r.points == points && r.satellites == sats
    ensures r.heatMap == HeatMap(d, grid) && |r.heatMap| == Max(d.rows, 0) * Max(d.cols, 0)
    ensures r.plot == PlotScript(n, title) && r.svPlot == SvScript(n)
    ensures SatelliteInset(FileName(n, ".sv.png")) in r.plot && Output(FileName(n, ".sv.png")) in r.svPlot
  {
    FrameFiles(n, HeatMap(d, grid), points, PlotScript(n, title), sats, SvScript(n))
  }
}

=== FILE: geometry.dfy ===
/** The spatial grid: its dimensions and origin as the converter derives them
    from the bounding box and bin sizes, the bin of a position, the cumulative
    counters, and the heat-map data written for each frame. */
module Geometry {
  import opened Basics
  import opened JavaNum

  /** Bin sizes and the bounding box `[lat0, lat1] x [lng0, lng1]`, in degrees. */
  datatype Box = Box(latBinSize: real, lngBinSize: real, lat0: real, lng0: real, lat1: real, lng1: real)

  predicate ValidBox(b: Box) { b.latBinSize != 0.0 && b.lngBinSize != 0.0 }

  /** The array's shape and origin, computed once at start-up: `nLatBin`,
      `nLngBin`, `latBin0` and `lngBin0`. */
  datatype Dims = Dims(rows: Int32, cols: Int32, row0: Int32, col0: Int32)

  /** `(int)((lat1 - lat0) / latBinSize) + 1` rows and the corresponding columns,
      in 32-bit arithmetic; the origin is `(int)(lat0 / latBinSize)`,
      `(int)(lng0 / lngBinSize)`. */
  function DimsOf(b: Box): (r: Dims)
    requires ValidBox(b)
    ensures var q := (b.lat1 - b.lat0) / b.latBinSize;
            && (0.0 <= q < INT_MAX as real ==> r.rows == q.Floor + 1)
            && (q <= -1.0 ==> r.rows <= 0)
            && (q >= INT_MAX as real ==> r.rows == INT_MIN)
    ensures var q := (b.lng1 - b.lng0) / b.lngBinSize;
            && (0.0 <= q < INT_MAX as real ==> r.cols == q.Floor + 1)
            && (q <= -1.0 ==> r.cols <= 0)
            && (q >= INT_MAX as real ==> r.cols == INT_MIN)
    ensures var t := Trunc((b.lat1 - b.lat0) / b.latBinSize);
            && (INT_MIN <= t < INT_MAX ==> r.rows == t + 1)
            && (t >= INT_MAX ==> r.rows == INT_MIN)
            && (t < INT_MIN ==> r.rows == INT_MIN + 1)
    ensures var t := Trunc((b.lng1 - b.lng0) / b.lngBinSize);
            && (INT_MIN <= t < INT_MAX ==> r.cols == t + 1)
            && (t >= INT_MAX ==> r.cols == INT_MIN)
            && (t < INT_MIN ==> r.cols == INT_MIN + 1)
    ensures var q := b.lat0 / b.latBinSize; 0.0 <= q < INT_MAX as real ==> r.row0 == q.Floor
    ensures var q := b.lng0 / b.lngBinSize; 0.0 <= q < INT_MAX as real ==> r.col0 == q.Floor
    ensures var t := Trunc(b.lat0 / b.latBinSize);
            && (InInt32(t) ==> r.row0 == t) && (t < INT_MIN ==> r.row0 == INT_MIN) && (t > INT_MAX ==> r.row0 == INT_MAX)
    ensures var t := Trunc(b.lng0 / b.lngBinSize);
            && (InInt32(t) ==> r.col0 == t) && (t < INT_MIN ==> r.col0 == INT_MIN) && (t > INT_MAX ==> r.col0 == INT_MAX)
  {
    Dims(Inc32(D2I((b.lat1 - b.lat0) / b.latBinSize)),
         Inc32(D2I((b.lng1 - b.lng0) / b.lngBinSize)),
         D2I(b.lat0 / b.latBinSize),
         D2I(b.lng0 / b.lngBinSize))
  }

  /** A counter position: (row, column) of the counter array. */
  type Cell = (int, int)

  /** The inclusive bounding-box test a fix must pass to be counted. */
  predicate InBox(b: Box, lat: real, lng: real)
  {
    b.lat0 <= lat <= b.lat1 && b.lng0 <= lng <= b.lng1
  }

  predicate InGrid(d: Dims, c: Cell)
  {
    0 <= c.0 < d.rows && 0 <= c.1 < d.cols
  }

  /** The counter a position goes to: each coordinate's bin, `(int)(x / binSize)`,
      less the origin's bin, in 32-bit arithmetic. The result may lie outside
      the array. */
  function BinOf(b: Box, d: Dims, lat: real, lng: real): (r: Cell)
    requires ValidBox(b)
    ensures var t := Trunc(lat / b.latBinSize); InInt32(t) && InInt32(t - d.row0) ==> r.0 == t - d.row0
    ensures var t := Trunc(lng / b.lngBinSize); InInt32(t) && InInt32(t - d.col0) ==> r.1 == t - d.col0
    ensures InInt32(r.0) && InInt32(r.1)
  {
    (Sub32(D2I(lat / b.latBinSize), d.row0), Sub32(D2I(lng / b.lngBinSize), d.col0))
  }

  // ---------------------------------------------------------------- staying inside the array

  predicate IsInteger(x: real) { x.Floor as real == x }

  /** Both ends of an axis lie on bin boundaries, within the 32-bit range. */
  predicate AlignedAxis(lo: real, hi: real, size: real)
  {
    && size > 0.0 && lo <= hi
    && IsInteger(lo / size) && IsInteger(hi / size)
    && InInt32((lo / size).Floor) && InInt32((hi / size).Floor)
    && (hi / size).Floor - (lo / size).Floor < INT_MAX
  }

  /** Both corners of the box lie on bin boundaries. */
  predicate Aligned(b: Box)
  {
    AlignedAxis(b.lat0, b.lat1, b.latBinSize) && AlignedAxis(b.lng0, b.lng1, b.lngBinSize)
  }

  /** On an aligned axis, every coordinate within the bounds gets a bin index in
      `[0, count)`, where count and origin are computed as the converter does. */
  lemma AlignedAxisIndexInRange(lo: real, hi: real, size: real, x: real)
    requires AlignedAxis(lo, hi, size) && lo <= x <= hi
    ensures var count := Inc32(D2I((hi - lo) / size));
            var index := Sub32(D2I(x / size), D2I(lo / size));
            0 <= index < count
  {
    var u, v, w := lo / size, x / size, hi / size;
    var k0, k1 := u.Floor, w.Floor;
    DivideSpan(lo, x, size);
    DivideSpan(x, hi, size);
    DivideSpan(lo, hi, size);
    TruncBetween(v, k0, k1);
    assert D2I(v) == Trunc(v);
    assert D2I(u) == k0;
    assert (hi - lo) / size == (k1 - k0) as real;
    assert D2I((hi - lo) / size) == k1 - k0;
  }

  /** Dividing by a positive bin size keeps order and turns differences into
      differences. */
  lemma DivideSpan(a: real, b: real, size: real)
    requires size > 0.0 && a <= b
    ensures a / size <= b / size && (b - a) / size == b / size - a / size
  {
    assert (b - a) / size == b / size - a / size;
  }

  /** With an aligned box, every position inside it is counted inside the array. */
  lemma AlignedBoxBinsInGrid(b: Box, lat: real, lng: real)
    requires Aligned(b) && InBox(b, lat, lng)
    ensures ValidBox(b) && InGrid(DimsOf(b), BinOf(b, DimsOf(b), lat, lng))
  {
    AlignedAxisIndexInRange(b.lat0, b.lat1, b.latBinSize, lat);
    AlignedAxisIndexInRange(b.lng0, b.lng1, b.lngBinSize, lng);
  }

  /** An unaligned upper edge: with latitudes `[0.5, 1.0]` in 1-degree bins the
      array has one row, yet a fix at latitude 1.0 goes to row 1. */
  lemma UnalignedUpperEdgeOverruns()
    ensures var b := Box(1.0, 1.0, 0.5, 0.0, 1.0, 0.0);
            ValidBox(b) && InBox(b, 1.0, 0.0) && DimsOf(b).rows == 1 && BinOf(b, DimsOf(b), 1.0, 0.0).0 == 1
            && !InGrid(DimsOf(b), BinOf(b, DimsOf(b), 1.0, 0.0))
  {
    var b := Box(1.0, 1.0, 0.5, 0.0, 1.0, 0.0);
    assert DimsOf(b) == Dims(1, 1, 0, 0) by {
      assert Trunc(0.5) == 0 && Trunc(0.0) == 0;
      assert (b.lat1 - b.lat0) / b.latBinSize == 0.5 && b.lat0 / b.latBinSize == 0.5;
      assert (b.lng1 - b.lng0) / b.lngBinSize == 0.0 && b.lng0 / b.lngBinSize == 0.0;
    }
    assert BinOf(b, Dims(1, 1, 0, 0), 1.0, 0.0) == (1, 0) by {
      assert Trunc(1.0) == 1 && Trunc(0.0) == 0;
      assert 1.0 / b.latBinSize == 1.0 && 0.0 / b.lngBinSize == 0.0;
    }
  }

  /** Truncation toward zero: with only the lower corner aligned, a negative
      coordinate is rounded up. Latitudes `[-2.0, -1.2]` give one row, and
      -1.5 goes to row 1. */
  lemma NegativeCoordinateOverruns()
    ensures var b := Box(1.0, 1.0, -2.0, 0.0, -1.2, 0.0);
            ValidBox(b) && InBox(b, -1.5, 0.0) && DimsOf(b).rows == 1 && BinOf(b, DimsOf(b), -1.5, 0.0).0 == 1
            && !InGrid(DimsOf(b), BinOf(b, DimsOf(b), -1.5, 0.0))
  {
    var b := Box(1.0, 1.0, -2.0, 0.0, -1.2, 0.0);
    assert D2I((-1.2 - -2.0) / 1.0) == 0 by { assert (-1.2 - -2.0) / 1.0 == 0.8; assert Trunc(0.8) == 0; }
    assert D2I(-2.0 / 1.0) == -2 by { assert -2.0 / 1.0 == -2.0; assert Trunc(-2.0) == -2; }
    assert D2I(-1.5 / 1.0) == -1 by { assert -1.5 / 1.0 == -1.5; assert Trunc(-1.5) == -1; }
    assert D2I(0.0 / 1.0) == 0 by { assert 0.0 / 1.0 == 0.0; assert Trunc(0.0) == 0; }
    assert DimsOf(b) == Dims(1, 1, -2, 0);
    assert BinOf(b, DimsOf(b), -1.5, 0.0) == (1, 0);
  }

  /** The origin is truncated toward zero, not floored: a lower corner at -1.5
      in 1-degree bins puts the origin at bin -1, although -1.5 lies in the
      bin starting at -2. */
  lemma NegativeLowerCornerOrigin()
    ensures var b := Box(1.0, 1.0, -1.5, 0.0, 0.0, 0.0);
            ValidBox(b) && DimsOf(b).row0 == -1 && (b.lat0 / b.latBinSize).Floor == -2
  {
    var b := Box(1.0, 1.0, -1.5, 0.0, 0.0, 0.0);
    assert Trunc(-1.5 / 1.0) == -1 by { assert -1.5 / 1.0 == -1.5; }
  }

  // ---------------------------------------------------------------- counters

  /** The counters that exist, by cell. A cell absent from the map is a null
      `Counter`: never hit. */
  type Counters = map<Cell, nat>

  function Count(grid: Counters, c: Cell): nat
  {
    if c in grid then grid[c] else 0
  }

  /** Every counter lies inside the array and has been hit at least once. */
  predicate GridInv(d: Dims, grid: Counters)
  {
    forall c :: c in grid ==> InGrid(d, c) && grid[c] >= 1
  }

  /** One hit on cell `c`: a missing counter is created at 1, an existing one
      goes up by one, and no other counter changes. */
  function Hit(grid: Counters, c: Cell): (r: Counters)
    ensures r.Keys == grid.Keys + {c}
    ensures Count(r, c) == Count(grid, c) + 1
    ensures forall d :: d != c ==> Count(r, d) == Count(grid, d)
  {
    grid[c := Count(grid, c) + 1]
  }

  // ---------------------------------------------------------------- heat-map data

  /** One line of the heat-map data file: the bin indices of the cell's corner,
      `index + origin`, and the counter, or -1 for a null counter. The file shows
      each bin index times its bin size (`LineLat`, `LineLng`). */
  datatype HeatLine = HeatLine(latBin: int, lngBin: int, count: int)

  function LineLat(b: Box, line: HeatLine): real { line.latBin as real * b.latBinSize }

  function LineLng(b: Box, line: HeatLine): real { line.lngBin as real * b.lngBinSize }

  function CellLine(d: Dims, grid: Counters, j: int, i: int): HeatLine
  {
    HeatLine(Wrap32(j + d.row0), Wrap32(i + d.col0), if (j, i) in grid then grid[(j, i)] else -1)
  }

  /** The rows of the counter array, row `j` holding the lines of cells
      `(j, 0) .. (j, cols-1)`. */
  function HeatRows(d: Dims, grid: Counters): (rows: seq<seq<HeatLine>>)
    ensures |rows| == Max(d.rows, 0)
    ensures forall j :: 0 <= j < |rows| ==> |rows[j]| == Max(d.cols, 0)
    ensures forall j, i :: 0 <= j < |rows| && 0 <= i < |rows[j]| ==> rows[j][i] == CellLine(d, grid, j, i)
  {
    var m, n := Max(d.rows, 0), Max(d.cols, 0);
    seq(m, j requires 0 <= j < m => seq(n, i requires 0 <= i < n => CellLine(d, grid, j, i)))
  }

  /** The rows one after the other. */
  function Flatten<T>(rows: seq<seq<T>>): seq<T>
    decreases |rows|
  {
    if |rows| == 0 then [] else Flatten(rows[..|rows| - 1]) + rows[|rows| - 1]
  }

  /** The heat-map data file of a frame: the whole array, one row after another,
      as the converter's nested loops over the latitude index, then the
      longitude index, write it. */
  function HeatMap(d: Dims, grid: Counters): (r: seq<HeatLine>)
    ensures |r| == Max(d.rows, 0) * Max(d.cols, 0)
  {
    var rows := HeatRows(d, grid);
    FlattenLength(rows, Max(d.cols, 0));
    OffsetIsProduct(|rows|, Max(d.cols, 0));
    Flatten(rows)
  }

  // ---------------------------------------------------------------- row-major layout

  /** Where row `j` starts when rows of length `n` are laid end to end: `j * n`,
      written as a sum. */
  function Offset(j: nat, n: nat): nat
  {
    if j == 0 then 0 else Offset(j - 1, n) + n
  }

  lemma {:induction false} OffsetIsProduct(j: nat, n: nat)
    ensures Offset(j, n) == j * n
  {
    if j > 0 {
      OffsetIsProduct(j - 1, n);
      assert (j - 1) * n + n == j * n;
    }
  }

  /** Every position before `Offset(m, n)` is column `i` of some row `j < m`. */
  lemma {:induction false} OffsetCover(k: nat, m: nat, n: nat) returns (j: nat, i: nat)
    requires k < Offset(m, n)
    ensures j < m && i < n && k == Offset(j, n) + i
  {
    if k < Offset(m - 1, n) {
      j, i := OffsetCover(k, m - 1, n);
    } else {
      j, i := m - 1, k - Offset(m - 1, n);
    }
  }

  /** Rows of equal length `n`, laid end to end, make `Offset(|rows|, n)` elements. */
  lemma {:induction false} FlattenLength<T>(rows: seq<seq<T>>, n: nat)
    requires forall j :: 0 <= j < |rows| ==> |rows[j]| == n
    ensures |Flatten(rows)| == Offset(|rows|, n)
    decreases |rows|
  {
    if |rows| > 0 {
      FlattenLength(rows[..|rows| - 1], n);
    }
  }

  /** A row that starts earlier ends no later than a later row starts. */
  lemma {:induction false} OffsetGrows(j: nat, k: nat, n: nat)
    requires j < k
    ensures Offset(j, n) + n <= Offset(k, n)
    decreases k
  {
    if j < k - 1 {
      OffsetGrows(j, k - 1, n);
    }
  }

  /** Rows of equal length `n`, laid end to end, put row `j`'s element `i` at
      position `Offset(j, n) + i`. */
  lemma {:induction false} FlattenAt<T>(rows: seq<seq<T>>, n: nat, j: nat, i: nat)
    requires forall j :: 0 <= j < |rows| ==> |rows[j]| == n
    requires j < |rows| && i < n
    ensures Offset(j, n) + i < |Flatten(rows)| && Flatten(rows)[Offset(j, n) + i] == rows[j][i]
    decreases |rows|
  {
    var m := |rows|;
    var front := rows[..m - 1];
    var ff := Flatten(front);
    FlattenLength(front, n);
    assert Flatten(rows) == ff + rows[m - 1];
    if j < m - 1 {
      OffsetGrows(j, m - 1, n);
      FlattenAt(front, n, j, i);
      assert Flatten(rows)[Offset(j, n) + i] == ff[Offset(j, n) + i];
    } else {
      assert Offset(j, n) == |ff|;
    }
  }

  // ---------------------------------------------------------------- heat-map layout

  /** The heat-map file has one line per counter of the array. */
  lemma HeatMapSize(d: Dims, grid: Counters)
    requires d.rows >= 0 && d.cols >= 0
    ensures |HeatMap(d, grid)| == Offset(d.rows, d.cols) == d.rows * d.cols
  {
    FlattenLength(HeatRows(d, grid), d.cols);
    OffsetIsProduct(d.rows, d.cols);
  }

  /** Line `Offset(j, cols) + i` of the heat-map file, that is line
      `j * cols + i`, is the line of cell `(j, i)`: latitude index outer,
      longitude index inner. It carries the bin indices and the counter, or -1
      exactly when the counter is null. */
  lemma HeatMapAt(d: Dims, grid: Counters, j: nat, i: nat)
    requires j < d.rows && i < d.cols
    ensures Offset(j, d.cols) + i < |HeatMap(d, grid)|
    ensures HeatMap(d, grid)[Offset(j, d.cols) + i] == CellLine(d, grid, j, i)
  {
    var rows := HeatRows(d, grid);
    FlattenAt(rows, d.cols, j, i);
    assert rows[j][i] == CellLine(d, grid, j, i);
  }

  /** Each line of the heat-map file is the line of some cell of the array. */
  lemma HeatMapLineAt(d: Dims, grid: Counters, k: nat) returns (j: nat, i: nat)
    requires d.rows >= 0 && d.cols >= 0 && k < |HeatMap(d, grid)|
    ensures j < d.rows && i < d.cols && k == Offset(j, d.cols) + i
    ensures HeatMap(d, grid)[k] == CellLine(d, grid, j, i)
  {
    HeatMapSize(d, grid);
    j, i := OffsetCover(k, d.rows, d.cols);
    HeatMapAt(d, grid, j, i);
  }

  /** With the grid invariant, the count field is -1 for a never-hit cell and at
      least 1 otherwise. */
  lemma HeatMapCountsValid(d: Dims, grid: Counters)
    requires d.rows >= 0 && d.cols >= 0 && GridInv(d, grid)
    ensures forall k :: 0 <= k < |HeatMap(d, grid)| ==>
              HeatMap(d, grid)[k].count == -1 || HeatMap(d, grid)[k].count >= 1
  {
    forall k | 0 <= k < |HeatMap(d, grid)|
      ensures HeatMap(d, grid)[k].count == -1 || HeatMap(d, grid)[k].count >= 1
    {
      var j, i := HeatMapLineAt(d, grid, k);
    }
  }

  /** Every counter shows up in the heat-map file, at its row-major position. */
  lemma HeatMapShowsCounters(d: Dims, grid: Counters, c: Cell)
    requires GridInv(d, grid) && c in grid
    ensures Offset(c.0, d.cols) + c.1 < |HeatMap(d, grid)|
    ensures HeatMap(d, grid)[Offset(c.0, d.cols) + c.1].count == grid[c]
  {
    HeatMapAt(d, grid, c.0, c.1);
  }
}

=== FILE: java_num.dfy ===
/** Java's fixed-width integer arithmetic and its `(int)` cast, written out over unbounded numbers. */
module JavaNum {

  const INT_MIN: int := -0x8000_0000
  const INT_MAX: int := 0x7FFF_FFFF
  const TWO32: int := 0x1_0000_0000

  predicate InInt32(x: int) { INT_MIN <= x <= INT_MAX }

  /** A Java `int`. */
  type Int32 = x: int | INT_MIN <= x <= INT_MAX

  function Abs(x: int): nat { if x < 0 then -x else x }

  /** The 32-bit result of Java `int` arithmetic, or of narrowing a `long` to `int`:
      the low 32 bits read as two's complement. */
  function Wrap32(x: int): (r: int)
    ensures InInt32(r)
    ensures (x - r) % TWO32 == 0
    ensures InInt32(x) ==> r == x
  {
    var m := x % TWO32;
    if m <= INT_MAX then m else m - TWO32
  }

  /** `x + 1` on an `int`: the largest value steps to the smallest. */
  function Inc32(x: Int32): Int32
  {
    if x == INT_MAX then INT_MIN else x + 1
  }

  /** `a - b` on two `int`s: the difference, brought back into range by one
      turn of 2^32 when it leaves it. */
  function Sub32(a: Int32, b: Int32): Int32
  {
    var d := a - b;
    if d > INT_MAX then d - TWO32 else if d < INT_MIN then d + TWO32 else d
  }

  /** The increment is the low 32 bits of the mathematical successor. */
  lemma Inc32IsWrap32(x: Int32)
    ensures Inc32(x) == Wrap32(x + 1)
  {
    if x == INT_MAX {
      assert (x + 1) % TWO32 == 0x8000_0000;
    }
  }

  /** The difference is the low 32 bits of the mathematical difference. */
  lemma Sub32IsWrap32(a: Int32, b: Int32)
    ensures Sub32(a, b) == Wrap32(a - b)
  {
    var d := a - b;
    if d > INT_MAX {
      assert d % TWO32 == d;
    } else if d < INT_MIN {
      assert d % TWO32 == d + TWO32;
    } else if d < 0 {
      assert d % TWO32 == d + TWO32;
    }
  }

  /** Java's `/` on `int` and `long`: the quotient rounded toward zero, so the
      remainder takes the sign of the dividend. */
  function Quot(a: int, b: int): (q: int)
    requires b != 0
    ensures Abs(a - q * b) < Abs(b)
    ensures a - q * b == 0 || (a - q * b < 0 <==> a < 0)
  {
    var q0 := Abs(a) / Abs(b);
    var q := if (a < 0) == (b < 0) then q0 else -q0;
    QuotRemainder(a, b, q0, q);
    q
  }

  lemma QuotRemainder(a: int, b: int, q0: int, q: int)
    requires b != 0 && q0 == Abs(a) / Abs(b)
    requires q == if (a < 0) == (b < 0) then q0 else -q0
    ensures a - q * b == (if a < 0 then -(Abs(a) % Abs(b)) else Abs(a) % Abs(b))
  {
    var A, B := Abs(a), Abs(b);
    var r0 := A % B;
    assert A == q0 * B + r0;
    if a < 0 && b < 0 {
      assert a - q * b == -A + q0 * B;
    } else if a < 0 {
      assert a - q * b == -A + q0 * B;
    } else if b < 0 {
      assert a - q * b == A - q0 * B;
    } else {
      assert a - q * b == A - q0 * B;
    }
  }

  /** A real number rounded toward zero. */
  function Trunc(x: real): (r: int)
    ensures 0.0 <= x ==> r as real <= x < r as real + 1.0
    ensures x < 0.0 ==> r as real - 1.0 < x <= r as real
  {
    if 0.0 <= x then x.Floor else -((-x).Floor)
  }

  /** Java's `(int)` cast of a `double`: truncation toward zero, saturating at the
      ends of the 32-bit range. Doubles are idealised as exact reals. */
  function D2I(x: real): (r: int)
    ensures InInt32(r)
    ensures InInt32(Trunc(x)) ==> r == Trunc(x)
    ensures Trunc(x) < INT_MIN ==> r == INT_MIN
    ensures Trunc(x) > INT_MAX ==> r == INT_MAX
  {
    var t := Trunc(x);
    if t < INT_MIN then INT_MIN else if t > INT_MAX then INT_MAX else t
  }

  lemma TruncMonotone(x: real, y: real)
    requires x <= y
    ensures Trunc(x) <= Trunc(y)
  {
  }

  /** Truncation of a real that lies between two integers lies between them too. */
  lemma TruncBetween(x: real, lo: int, hi: int)
    requires lo as real <= x <= hi as real
    ensures lo <= Trunc(x) <= hi
  {
  }

  lemma D2IMonotone(x: real, y: real)
    requires x <= y
    ensures D2I(x) <= D2I(y)
  {
    TruncMonotone(x, y);
  }
}

=== FILE: java_text.dfy ===
/** The parts of `java.lang.String`, `Integer` and `Double` the converter relies on:
    searching for a character, splitting on commas, zero-padded decimal
    rendering, and the two number parsers. */
module JavaText {
  import opened Basics
  import opened JavaNum

  /** `String.lastIndexOf(char)`: the position of the last `c` in `s`, or -1 when there is none. */
  function LastIndexOf(s: string, c: char): (i: int)
    ensures -1 <= i < |s|
    ensures i >= 0 ==> s[i] == c
    ensures forall k :: i < k < |s| ==> s[k] != c
    decreases |s|
  {
    if |s| == 0 then -1
    else if s[|s| - 1] == c then |s| - 1
    else LastIndexOf(s[..|s| - 1], c)
  }

  /** The position of the first character of `s` that is one of `cs`, or -1. */
  function IndexOfAny(s: string, cs: string): (i: int)
    ensures -1 <= i < |s|
    ensures i >= 0 ==> s[i] in cs
    ensures forall k :: 0 <= k < |s| && (i < 0 || k < i) ==> s[k] !in cs
    decreases |s|
  {
    if |s| == 0 then -1
    else if s[0] in cs then 0
    else
      var j := IndexOfAny(s[1..], cs);
      assert forall k :: 1 <= k < |s| ==> s[k] == s[1..][k - 1];
      if j < 0 then -1 else j + 1
  }

  /** Every piece of `s` between commas, empty pieces included: a string with
      `n` commas has `n + 1` pieces. */
  function Pieces(s: string): (r: seq<string>)
    ensures |r| >= 1
    ensures forall k :: 0 <= k < |r| ==> ',' !in r[k]
    decreases |s|
  {
    var i := LastIndexOf(s, ',');
    if i < 0 then [s]
    else
      var front, last := Pieces(s[..i]), s[i + 1..];
      assert forall k :: 0 <= k < |front| + 1 ==> ',' !in (front + [last])[k] by {
        assert forall k :: 0 <= k < |last| ==> last[k] == s[i + 1 + k];
        assert ',' !in last;
        assert forall k :: 0 <= k < |front| + 1 ==> (front + [last])[k] == if k < |front| then front[k] else last;
      }
      front + [last]
  }

  /** The pieces put back together with commas between them. */
  function Join(fs: seq<string>): string
    requires |fs| >= 1
  {
    if |fs| == 1 then fs[0] else Join(fs[..|fs| - 1]) + "," + fs[|fs| - 1]
  }

  /** Joining the pieces of a string gives back the string. */
  lemma {:induction false} JoinPieces(s: string)
    ensures Join(Pieces(s)) == s
    decreases |s|
  {
    var i := LastIndexOf(s, ',');
    if i >= 0 {
      var ps := Pieces(s[..i]);
      JoinPieces(s[..i]);
      assert Pieces(s) == ps + [s[i + 1..]];
      assert (ps + [s[i + 1..]])[..|ps|] == ps;
      assert s == s[..i] + "," + s[i + 1..];
    }
  }

  /** Splitting a comma-joined list of comma-free pieces gives back the pieces. */
  lemma {:induction false} PiecesJoin(fs: seq<string>)
    requires |fs| >= 1
    requires forall k :: 0 <= k < |fs| ==> ',' !in fs[k]
    ensures Pieces(Join(fs)) == fs
    decreases |fs|
  {
    if |fs| > 1 {
      var front, last := Join(fs[..|fs| - 1]), fs[|fs| - 1];
      var s := front + "," + last;
      assert s[|front|] == ',';
      forall k | |front| < k < |s|
        ensures s[k] != ','
      {
        assert s[k] == last[k - |front| - 1];
      }
      assert LastIndexOf(s, ',') == |front|;
      assert s[..|front|] == front;
      assert s[|front| + 1..] == last;
      PiecesJoin(fs[..|fs| - 1]);
      assert fs == fs[..|fs| - 1] + [last];
    }
  }

  /** The prefix of `fs` left after removing every empty string at its end. */
  function DropTrailingEmpty(fs: seq<string>): (r: seq<string>)
    ensures r <= fs
    ensures |r| == 0 || r[|r| - 1] != ""
    ensures forall k :: |r| <= k < |fs| ==> fs[k] == ""
    decreases |fs|
  {
    if |fs| == 0 || fs[|fs| - 1] != "" then fs
    else DropTrailingEmpty(fs[..|fs| - 1])
  }

  /** `String.split(",")`: the comma-separated fields with trailing empty fields
      removed; a string without a comma is returned whole, even when empty. */
  function Split(s: string): (r: seq<string>)
    ensures forall k :: 0 <= k < |r| ==> ',' !in r[k]
    ensures s == "" ==> r == [""]
    ensures s != "" ==> && r <= Pieces(s)
                        && (|r| == 0 || r[|r| - 1] != "")
                        && forall k :: |r| <= k < |Pieces(s)| ==> Pieces(s)[k] == ""
  {
    if s == "" then [""] else DropTrailingEmpty(Pieces(s))
  }

  /** Joining a list whose pieces from `n` on are empty gives the join of the
      first `n` pieces followed by commas only. */
  lemma {:induction false} JoinEmptyTail(fs: seq<string>, n: nat)
    requires 1 <= n <= |fs|
    requires forall k :: n <= k < |fs| ==> fs[k] == ""
    ensures Join(fs[..n]) <= Join(fs)
    ensures forall k :: |Join(fs[..n])| <= k < |Join(fs)| ==> Join(fs)[k] == ','
    decreases |fs|
  {
    if |fs| > n {
      var front := fs[..|fs| - 1];
      JoinEmptyTail(front, n);
      assert front[..n] == fs[..n];
      assert Join(fs) == Join(front) + ",";
    } else {
      assert fs[..n] == fs;
    }
  }

  /** Splitting loses only trailing commas: joining the fields back with commas
      gives the line up to a final run of commas. */
  lemma SplitJoin(s: string)
    requires |Split(s)| >= 1
    ensures Join(Split(s)) <= s
    ensures forall k :: |Join(Split(s))| <= k < |s| ==> s[k] == ','
  {
    if s != "" {
      var r := Split(s);
      JoinPieces(s);
      assert Pieces(s)[..|r|] == r;
      JoinEmptyTail(Pieces(s), |r|);
    }
  }

  // ---------------------------------------------------------------- digits

  predicate IsDigit(c: char) { '0' <= c <= '9' }

  predicate AllDigits(s: string) { forall k :: 0 <= k < |s| ==> IsDigit(s[k]) }

  function DigitChar(d: int): (c: char)
    requires 0 <= d < 10
    ensures IsDigit(c) && c as int - '0' as int == d
  {
    ('0' as int + d) as char
  }

  function Pow10(n: nat): (p: nat)
    ensures p >= 1
  {
    if n == 0 then 1 else 10 * Pow10(n - 1)
  }

  /** The number a string of decimal digits denotes. */
  function DigitsValue(s: string): nat
    requires AllDigits(s)
  {
    if |s| == 0 then 0
    else 10 * DigitsValue(s[..|s| - 1]) + (s[|s| - 1] as int - '0' as int)
  }

  lemma ShiftDigit(va: int, vb: int, p: int, d: int)
    ensures 10 * (va * p + vb) + d == va * (10 * p) + (10 * vb + d)
  {
    assert 10 * (va * p) == va * (10 * p);
  }

  lemma {:induction false} DigitsValueAppend(a: string, b: string)
    requires AllDigits(a) && AllDigits(b)
    ensures AllDigits(a + b)
    ensures DigitsValue(a + b) == DigitsValue(a) * Pow10(|b|) + DigitsValue(b)
    decreases |b|
  {
    assert AllDigits(a + b) by {
      forall k | 0 <= k < |a + b| ensures IsDigit((a + b)[k]) {
        if k >= |a| { assert (a + b)[k] == b[k - |a|]; }
      }
    }
    if |b| == 0 {
      assert a + b == a;
    } else {
      var b' := b[..|b| - 1];
      var d := b[|b| - 1] as int - '0' as int;
      assert (a + b)[..|a + b| - 1] == a + b';
      assert (a + b)[|a + b| - 1] == b[|b| - 1];
      DigitsValueAppend(a, b');
      var va, vb', p' := DigitsValue(a), DigitsValue(b'), Pow10(|b'|);
      assert DigitsValue(a + b) == 10 * DigitsValue(a + b') + d;
      assert DigitsValue(b) == 10 * vb' + d;
      assert Pow10(|b|) == 10 * p';
      ShiftDigit(va, vb', p', d);
    }
  }

  /** `n` in decimal, without leading zeros (`Integer.toString` of a non-negative number). */
  function Decimal(n: nat): (s: string)
    ensures |s| >= 1 && AllDigits(s)
    ensures DigitsValue(s) == n
    ensures |s| == 1 || s[0] != '0'
  {
    if n < 10 then [DigitChar(n)]
    else
      var front := Decimal(n / 10);
      var s := front + [DigitChar(n % 10)];
      assert s[..|s| - 1] == front;
      s
  }

  /** A decimal numeral of `k` digits denotes a number below `10^k`. */
  lemma {:induction false} DigitsValueBelow(s: string)
    requires AllDigits(s)
    ensures DigitsValue(s) < Pow10(|s|)
    decreases |s|
  {
    if |s| > 0 {
      DigitsValueBelow(s[..|s| - 1]);
    }
  }

  /** A number below `10^k` needs at most `k` digits. */
  lemma {:induction false} DecimalLength(n: nat, k: nat)
    requires k >= 1 && n < Pow10(k)
    ensures |Decimal(n)| <= k
    decreases k
  {
    if n >= 10 {
      DecimalLength(n / 10, k - 1);
    }
  }

  function Zeros(k: int): (z: string)
    ensures |z| == if k < 0 then 0 else k
    ensures AllDigits(z) && DigitsValue(z) == 0
    decreases k
  {
    if k <= 0 then ""
    else
      var z := Zeros(k - 1) + "0";
      assert z[..|z| - 1] == Zeros(k - 1);
      z
  }

  /** `String.format("%06d", n)` for a non-negative `n`. */
  function Pad6(n: nat): (s: string)
    ensures AllDigits(s) && DigitsValue(s) == n
    ensures |s| == Max(6, |Decimal(n)|)
  {
    var d := Decimal(n);
    DigitsValueAppend(Zeros(6 - |d|), d);
    Zeros(6 - |d|) + d
  }

  /** Below one million, the padded numeral is exactly six characters wide. */
  lemma Pad6Width(n: nat)
    requires n < 1000000
    ensures |Pad6(n)| == 6
  {
    assert Pow10(6) == 1000000;
    DecimalLength(n, 6);
  }

  // ---------------------------------------------------------------- number parsing

  /** The text `Integer.parseInt` accepts, range aside: at least one decimal
      digit, optionally after a leading `+` or `-`. */
  predicate IntSyntax(s: string)
  {
    && |s| >= 1
    && (forall k :: 0 <= k < |s| ==> IsDigit(s[k]) || (k == 0 && (s[k] == '-' || s[k] == '+')))
    && (|s| >= 2 || IsDigit(s[0]))
  }

  /** The integer such text denotes. */
  function SignedDigits(s: string): int
    requires IntSyntax(s)
  {
    if IsDigit(s[0]) then DigitsValue(s)
    else if s[0] == '-' then -(DigitsValue(s[1..]) as int)
    else DigitsValue(s[1..])
  }

  /** `Integer.parseInt` (and `new Integer(String)`): an optional sign and at
      least one decimal digit, denoting a number within the 32-bit range. */
  function ParseInt(s: string): (r: Option<int>)
    ensures r.Some? <==> IntSyntax(s) && InInt32(SignedDigits(s))
    ensures r.Some? ==> r.value == SignedDigits(s)
    ensures r.Some? ==> InInt32(r.value)
    ensures r.Some? ==> |s| >= 1 && (IsDigit(s[0]) || s[0] == '-' || s[0] == '+')
  {
    if |s| == 0 then None
    else
      var signed := s[0] == '-' || s[0] == '+';
      var digits := if signed then s[1..] else s;
      if |digits| == 0 || !AllDigits(digits) then None
      else
        var v: int := if s[0] == '-' then -(DigitsValue(digits) as int) else DigitsValue(digits);
        if InInt32(v) then Some(v) else None
  }

  /** `Integer.toString`. */
  function IntText(v: int): string
  {
    if v < 0 then "-" + Decimal(-v) else Decimal(v)
  }

  /** Every 32-bit integer survives being written out and parsed back. */
  lemma ParseIntText(v: int)
    requires InInt32(v)
    ensures ParseInt(IntText(v)) == Some(v)
  {
    if v < 0 {
      assert IntText(v)[1..] == Decimal(-v);
    }
  }

  /** `String.trim`: drops every character at or below U+0020 from both ends. */
  function Trim(s: string): (t: string)
    ensures |t| == 0 || (t[0] > ' ' && t[|t| - 1] > ' ')
    decreases |s|
  {
    if |s| == 0 then s
    else if s[0] <= ' ' then Trim(s[1..])
    else if s[|s| - 1] <= ' ' then Trim(s[..|s| - 1])
    else s
  }

  /** `v * 10^e` for an integer exponent of either sign. */
  function Scale(v: real, e: int): (r: real)
    ensures v >= 0.0 ==> r >= 0.0
  {
    if e >= 0 then v * Pow10(e) as real else v / Pow10(-e) as real
  }

  predicate HasDigit(s: string) { exists k :: 0 <= k < |s| && IsDigit(s[k]) }

  /** The characters of a mantissa, of an unsigned number with its exponent,
      and of the whole text `Double.parseDouble` reads. */
  predicate MantissaChar(c: char) { IsDigit(c) || c == '.' }

  predicate UnsignedChar(c: char) { MantissaChar(c) || c == 'e' || c == 'E' || c == '+' || c == '-' }

  predicate DoubleChar(c: char) { UnsignedChar(c) || c == 'f' || c == 'F' || c == 'd' || c == 'D' }

  /** The exponent after `e`/`E`: an optional sign and at least one digit. */
  function ParseExponent(s: string): (r: Option<int>)
    ensures r.Some? <==> IntSyntax(s)
    ensures r.Some? ==> r.value == SignedDigits(s)
  {
    if |s| == 0 then None
    else
      var signed := s[0] == '-' || s[0] == '+';
      var digits := if signed then s[1..] else s;
      if |digits| == 0 || !AllDigits(digits) then None
      else Some(if s[0] == '-' then -(DigitsValue(digits) as int) else DigitsValue(digits))
  }

  /** Digits with at most one `.` and at least one digit in all. */
  function ParseMantissa(s: string): (r: Option<real>)
    ensures r.Some? ==> r.value >= 0.0
    ensures r.Some? ==> HasDigit(s) && forall k :: 0 <= k < |s| ==> MantissaChar(s[k])
  {
    var dot := IndexOfAny(s, ".");
    var whole := if dot < 0 then s else s[..dot];
    var fraction := if dot < 0 then "" else s[dot + 1..];
    if !AllDigits(whole) || !AllDigits(fraction) || |whole| + |fraction| == 0 then None
    else
      assert HasDigit(s) && forall k :: 0 <= k < |s| ==> MantissaChar(s[k]) by {
        assert forall k :: 0 <= k < |whole| ==> s[k] == whole[k];
        assert dot >= 0 ==> forall k :: dot < k < |s| ==> s[k] == fraction[k - dot - 1];
        assert |whole| > 0 ==> IsDigit(s[0]);
        assert |whole| == 0 ==> IsDigit(s[dot + 1]);
      }
      Some(FixedValue(whole, fraction))
  }

  /** The number `whole.fraction` denotes. */
  function FixedValue(whole: string, fraction: string): (v: real)
    requires AllDigits(whole) && AllDigits(fraction)
    ensures v >= DigitsValue(whole) as real
  {
    DigitsValue(whole) as real + DigitsValue(fraction) as real / Pow10(|fraction|) as real
  }

  /** An unsigned decimal number: a mantissa and an optional exponent. */
  function ParseUnsigned(s: string): (r: Option<real>)
    ensures r.Some? ==> r.value >= 0.0
  {
    var e := IndexOfAny(s, "eE");
    if e < 0 then ParseMantissa(s)
    else
      match (ParseMantissa(s[..e]), ParseExponent(s[e + 1..]))
      case (Some(m), Some(x)) => Some(Scale(m, x))
      case _ => None
  }

  /** Readable unsigned text has a digit and only number characters. */
  lemma UnsignedText(s: string)
    requires ParseUnsigned(s).Some?
    ensures HasDigit(s) && forall k :: 0 <= k < |s| ==> UnsignedChar(s[k])
  {
    var e := IndexOfAny(s, "eE");
    if e >= 0 {
      assert ParseMantissa(s[..e]).Some? && ParseExponent(s[e + 1..]).Some?;
      ExponentChars(s, e);
    }
  }

  /** A mantissa, an exponent letter and an exponent make an unsigned number's text. */
  lemma ExponentChars(s: string, e: int)
    requires 0 <= e < |s|
    requires HasDigit(s[..e]) && forall k :: 0 <= k < e ==> MantissaChar(s[..e][k])
    requires IntSyntax(s[e + 1..]) && (s[e] == 'e' || s[e] == 'E')
    ensures HasDigit(s) && forall k :: 0 <= k < |s| ==> UnsignedChar(s[k])
  {
    var mantissa, exponent := s[..e], s[e + 1..];
    var j :| 0 <= j < |mantissa| && IsDigit(mantissa[j]);
    assert IsDigit(s[j]);
    forall k | 0 <= k < |s|
      ensures UnsignedChar(s[k])
    {
      if k < e {
        assert s[k] == mantissa[k];
      } else if k > e {
        assert s[k] == exponent[k - e - 1];
      }
    }
  }

  /** `Double.parseDouble` over decimal text: surrounding blanks trimmed, an
      optional sign, the number, and an optional `f`/`F`/`d`/`D` suffix. The value
      is the exact real the text denotes. */
  function ParseDouble(s: string): (r: Option<real>)
    ensures r.Some? ==> |Trim(s)| >= 1
    ensures r.Some? && Trim(s)[0] == '-' ==> r.value <= 0.0
    ensures r.Some? && Trim(s)[0] != '-' ==> r.value >= 0.0
    ensures r.Some? ==> HasDigit(Trim(s)) && forall k :: 0 <= k < |Trim(s)| ==> DoubleChar(Trim(s)[k])
  {
    var t := Trim(s);
    if |t| == 0 then None
    else
      var body := if t[0] == '-' || t[0] == '+' then t[1..] else t;
      var number := if |body| > 0 && body[|body| - 1] in "fFdD" then body[..|body| - 1] else body;
      match ParseUnsigned(number)
      case None => None
      case Some(v) =>
        UnsignedText(number);
        NumberTextWithin(t, body, number);
        Some(if t[0] == '-' then -v else v)
  }

  /** A number between an optional sign and an optional suffix letter. */
  lemma NumberTextWithin(t: string, body: string, number: string)
    requires |t| >= 1 && body == if t[0] == '-' || t[0] == '+' then t[1..] else t
    requires number == if |body| > 0 && body[|body| - 1] in "fFdD" then body[..|body| - 1] else body
    requires HasDigit(number) && forall k :: 0 <= k < |number| ==> UnsignedChar(number[k])
    ensures HasDigit(t) && forall k :: 0 <= k < |t| ==> DoubleChar(t[k])
  {
    var off := |t| - |body|;
    var j :| 0 <= j < |number| && IsDigit(number[j]);
    assert number[j] == body[j] == t[j + off];
    forall k | 0 <= k < |t|
      ensures DoubleChar(t[k])
    {
      if k < off {
        assert t[k] == '-' || t[k] == '+';
      } else if k - off < |number| {
        assert t[k] == body[k - off] == number[k - off];
      } else {
        assert t[k] == body[|body| - 1];
      }
    }
  }

  /** Plain fixed-point text `whole.fraction` parses to the number it denotes. */
  lemma ParseFixedPoint(whole: string, fraction: string)
    requires |whole| >= 1 && AllDigits(whole) && AllDigits(fraction)
    ensures ParseDouble(whole + "." + fraction)
         == Some(FixedValue(whole, fraction))
  {
    var s := whole + "." + fraction;
    assert s[0] == whole[0];
    assert s[|s| - 1] == if |fraction| == 0 then '.' else fraction[|fraction| - 1];
    PlainNumber(s);
    UnsignedFixedPoint(whole, fraction);
  }

  /** Text that starts with a digit and ends in a digit or a point has no blanks
      to trim, no sign and no suffix: it reads as an unsigned number. */
  lemma PlainNumber(t: string)
    requires |t| >= 1 && IsDigit(t[0]) && (IsDigit(t[|t| - 1]) || t[|t| - 1] == '.')
    ensures ParseDouble(t) == ParseUnsigned(t)
  {
    assert Trim(t) == t by {
      assert t[0] > ' ' && t[|t| - 1] > ' ';
    }
    assert t[0] != '-' && t[0] != '+';
    assert t[|t| - 1] !in "fFdD" by {
      assert t[|t| - 1] != 'f' && t[|t| - 1] != 'F' && t[|t| - 1] != 'd' && t[|t| - 1] != 'D';
    }
  }

  lemma UnsignedFixedPoint(whole: string, fraction: string)
    requires |whole| >= 1 && AllDigits(whole) && AllDigits(fraction)
    ensures ParseUnsigned(whole + "." + fraction)
         == Some(FixedValue(whole, fraction))
  {
    FixedPointHasNoExponent(whole, fraction);
    MantissaFixedPoint(whole, fraction);
  }

  lemma FixedPointHasNoExponent(whole: string, fraction: string)
    requires AllDigits(whole) && AllDigits(fraction)
    ensures IndexOfAny(whole + "." + fraction, "eE") == -1
  {
    var s := whole + "." + fraction;
    forall k | 0 <= k < |s| ensures s[k] != 'e' && s[k] != 'E' {
      if k < |whole| { assert s[k] == whole[k]; }
      else if k > |whole| { assert s[k] == fraction[k - |whole| - 1]; }
    }
  }

  lemma MantissaFixedPoint(whole: string, fraction: string)
    requires |whole| >= 1 && AllDigits(whole) && AllDigits(fraction)
    ensures ParseMantissa(whole + "." + fraction)
         == Some(FixedValue(whole, fraction))
  {
    var s := whole + "." + fraction;
    forall k | 0 <= k < |whole| ensures s[k] !in "." {
      assert s[k] == whole[k];
    }
    assert s[|whole|] == '.';
    assert IndexOfAny(s, ".") == |whole|;
    assert s[..|whole|] == whole;
    assert s[|whole| + 1..] == fraction;
  }

  /** Plain digit text parses to the whole number it denotes. */
  lemma ParseWholeNumber(digits: string)
    requires |digits| >= 1 && AllDigits(digits)
    ensures ParseDouble(digits) == Some(DigitsValue(digits) as real)
  {
    assert IsDigit(digits[0]) && IsDigit(digits[|digits| - 1]);
    PlainNumber(digits);
    UnsignedWholeNumber(digits);
  }

  lemma UnsignedWholeNumber(digits: string)
    requires |digits| >= 1 && AllDigits(digits)
    ensures ParseUnsigned(digits) == Some(DigitsValue(digits) as real)
  {
    assert forall k :: 0 <= k < |digits| ==> digits[k] !in "eE" && digits[k] !in ".";
    assert IndexOfAny(digits, "eE") < 0;
    assert IndexOfAny(digits, ".") < 0;
    assert FixedValue(digits, "") == DigitsValue(digits) as real;
  }
}

=== FILE: movie.dfy ===
/** The converter's main loop as a state machine: one step per input line,
    with the frame files it writes returned as values. */
module Movie {
  import opened Basics
  import opened JavaNum
  import opened Nmea
  import opened Geometry
  import opened Frames

  /** The command-line settings, and the two date conversions the converter
      leaves to `SimpleDateFormat`: `parseTimestamp` reads a `ddMMyy-HHmmss`
      text as milliseconds since the epoch (None where the parser throws), and
      `formatTitle` renders milliseconds as `yyyy-MM-dd HH:mm:ss`. */
  datatype Config = Config(
    box: Box,
    frameLength: int,
    minSatellites: Option<int>,
    parseTimestamp: string -> Option<int>,
    formatTitle: int -> string)

  predicate ValidConfig(cfg: Config) { ValidBox(cfg.box) }

  /** The loop's variables: the array shape, the last RMC date, the counters,
      the current frame's points and satellites, the frame number and the time
      bin of the last flush. */
  datatype State = State(
    dims: Dims,
    date: string,
    grid: Counters,
    points: seq<Point>,
    satellites: map<int, Sat>,
    frame: nat,
    prevTimeBin: int)

  /** What every reachable state satisfies. Its array shape is also the one
      computed from the box: `Init` sets it and no step changes it. */
  predicate Inv(cfg: Config, s: State)
  {
    && ValidConfig(cfg)
    && s.dims.rows >= 0 && s.dims.cols >= 0
    && GridInv(s.dims, s.grid)
    && Keyed(s.satellites)
    && s.frame >= 1
    && forall k :: 0 <= k < |s.points| ==> InBox(cfg.box, s.points[k].lat, s.points[k].lng)
  }

  /** Start-up: the array is allocated with the computed shape, which fails on a
      negative dimension; frame 1, time bin 0, no date yet. */
  function Init(cfg: Config): (r: Result<State>)
    requires ValidConfig(cfg)
    ensures r.Ok? <==> DimsOf(cfg.box).rows >= 0 && DimsOf(cfg.box).cols >= 0
    ensures r.Err? ==> r.failure == NegativeArraySize
    ensures r.Ok? ==> Inv(cfg, r.value) && r.value.dims == DimsOf(cfg.box) && r.value.frame == 1 && r.value.prevTimeBin == 0
                      && r.value.grid == map[] && r.value.points == [] && r.value.satellites == map[]
                      && r.value.date == ""
  {
    var d := DimsOf(cfg.box);
    if d.rows < 0 || d.cols < 0 then Err(NegativeArraySize)
    else Ok(State(d, "", map[], [], map[], 1, 0))
  }

  /** The outcome of one line: skipped, processed (with the frame flushed on the
      way, if any), or ended by an exception (after the flush, if any). */
  datatype StepResult =
    | Ignored
    | Advanced(next: State, flushed: Option<FrameFiles>)
    | Fatal(failure: Failure, flushed: Option<FrameFiles>)

  /** A fix sentence the converter goes on to use: GGA, at least 9 fields and a
      non-empty latitude. */
  predicate IsFixSentence(p: seq<string>)
  {
    |p| >= 9 && p[0] == GGA && p[2] != ""
  }

  /** A fix passes the satellite-count filter and lies in the bounding box. */
  predicate Admits(cfg: Config, fix: Reading)
  {
    && (cfg.minSatellites.None? || fix.satellites >= cfg.minSatellites.value)
    && InBox(cfg.box, fix.lat, fix.lng)
  }

  /** The time bin of a timestamp: milliseconds divided by the frame length in
      milliseconds, truncated and cast to a 32-bit int. */
  function TimeBin(ts: int, frameLength: int): (r: Result<int>)
    ensures r.Err? <==> frameLength == 0
    ensures r.Err? ==> r.failure == DivisionByZero
    ensures r.Ok? ==> InInt32(r.value)
    ensures r.Ok? ==> (Quot(ts, 1000 * frameLength) - r.value) % TWO32 == 0
    ensures r.Ok? && InInt32(Quot(ts, 1000 * frameLength)) ==> r.value == Quot(ts, 1000 * frameLength)
    ensures r.Ok? && ts >= 0 && frameLength > 0 && InInt32(ts / (1000 * frameLength))
            ==> r.value == ts / (1000 * frameLength)
  {
    var divisor := 1000 * frameLength;
    if divisor == 0 then Err(DivisionByZero) else Ok(Wrap32(Quot(ts, divisor)))
  }

  /** Counting a readable fix sentence, after any flush: the fields are read, the
      filters applied, and an admitted fix is added to its counter and to the
      frame's points. `out` is the frame already flushed for this line. */
  function Place(cfg: Config, s: State, p: seq<string>, out: Option<FrameFiles>): (r: StepResult)
    requires ValidConfig(cfg) && |p| >= 9
    ensures r.Ignored? == false && r.flushed == out
    ensures r.Advanced? ==> r.next.dims == s.dims && r.next.frame == s.frame
                            && r.next.prevTimeBin == s.prevTimeBin && r.next.satellites == s.satellites
    ensures r.Advanced? && Inv(cfg, s) ==> Inv(cfg, r.next)
    ensures r.Advanced? ==> forall c :: Count(s.grid, c) <= Count(r.next.grid, c)
    ensures r.Fatal? <==> ReadFix(p).Err?
                          || (Admits(cfg, ReadFix(p).value)
                              && !InGrid(s.dims, BinOf(cfg.box, s.dims, ReadFix(p).value.lat, ReadFix(p).value.lng)))
  {
    match ReadFix(p)
    case Err(e) => Fatal(e, out)
    case Ok(fix) =>
      if !Admits(cfg, fix) then Advanced(s, out)
      else
        var c := BinOf(cfg.box, s.dims, fix.lat, fix.lng);
        if !InGrid(s.dims, c) then Fatal(IndexOutOfBounds, out)
        else
          CountedKeepsInv(cfg, s, c, Point(fix.lat, fix.lng));
          Advanced(s.(grid := Hit(s.grid, c), points := s.points + [Point(fix.lat, fix.lng)]), out)
  }

  /** Counting a point inside the box on a cell inside the grid keeps the
      invariant and lowers no counter. */
  lemma CountedKeepsInv(cfg: Config, s: State, c: Cell, pt: Point)
    requires InGrid(s.dims, c) && InBox(cfg.box, pt.lat, pt.lng)
    ensures Inv(cfg, s) ==> Inv(cfg, s.(grid := Hit(s.grid, c), points := s.points + [pt]))
    ensures forall e :: Count(s.grid, e) <= Count(Hit(s.grid, c), e)
  {
    var t := s.(grid := Hit(s.grid, c), points := s.points + [pt]);
    if Inv(cfg, s) {
      forall k | 0 <= k < |t.points|
        ensures InBox(cfg.box, t.points[k].lat, t.points[k].lng)
      {
        if k < |s.points| {
          assert t.points[k] == s.points[k];
        }
      }
    }
  }

  /** `f` is the frame a flush writes in state `s`: the whole grid, the
      frame's points and satellites, under the current frame number. */
  ghost predicate Flushes(s: State, f: FrameFiles)
  {
    exists title :: f == EmitFrame(s.dims, s.grid, s.points, s.satellites, s.frame, title)
  }

  /** The state a flush leaves: the frame's points and satellites cleared, the
      next frame number, the new time bin. */
  function AfterFlush(s: State, bin: int): State
  {
    s.(points := [], satellites := map[], frame := s.frame + 1, prevTimeBin := bin)
  }

  /** A fix sentence: the timestamp is the last RMC date joined to the fix time;
      when its time bin is past the last one, the current frame is written out
      before the fix is counted. */
  function Fix(cfg: Config, s: State, p: seq<string>): (r: StepResult)
    requires ValidConfig(cfg) && IsFixSentence(p)
    ensures r.Ignored? == false
    ensures r.Fatal? ==> r.failure in {IndexOutOfBounds, NumberFormat, UnparsableTimestamp, DivisionByZero}
    ensures cfg.parseTimestamp(s.date + "-" + p[1]).None? ==> r == Fatal(UnparsableTimestamp, None)
    ensures cfg.parseTimestamp(s.date + "-" + p[1]).Some? && cfg.frameLength == 0 ==> r == Fatal(DivisionByZero, None)
    ensures r.flushed.Some? ==> r.flushed.value.number == s.frame && Flushes(s, r.flushed.value)
    ensures r.Advanced? ==> r.next.dims == s.dims && r.next.date == s.date && r.next.prevTimeBin >= s.prevTimeBin
    ensures r.Advanced? ==> r.next.frame == s.frame + (if r.flushed.Some? then 1 else 0)
    ensures r.Advanced? && Inv(cfg, s) ==> Inv(cfg, r.next)
    ensures r.Advanced? ==> forall c :: Count(s.grid, c) <= Count(r.next.grid, c)
  {
    match cfg.parseTimestamp(s.date + "-" + p[1])
    case None => Fatal(UnparsableTimestamp, None)
    case Some(ts) =>
      match TimeBin(ts, cfg.frameLength)
      case Err(e) => Fatal(e, None)
      case Ok(bin) => FlushAndPlace(cfg, s, p, bin, cfg.formatTitle(ts))
  }

  /** The fix with its time bin known: the current frame is written out first
      when the bin is past the last one, then the fix is counted. */
  function FlushAndPlace(cfg: Config, s: State, p: seq<string>, bin: int, title: string): (r: StepResult)
    requires ValidConfig(cfg) && IsFixSentence(p)
    ensures r.Ignored? == false
    ensures r.Fatal? ==> r.failure in {IndexOutOfBounds, NumberFormat}
    ensures r.flushed.Some? <==> bin > s.prevTimeBin
    ensures r.flushed.Some? ==> r.flushed.value == EmitFrame(s.dims, s.grid, s.points, s.satellites, s.frame, title)
    ensures r.Advanced? ==> r.next.dims == s.dims && r.next.date == s.date && r.next.prevTimeBin >= s.prevTimeBin
    ensures r.Advanced? ==> r.next.frame == s.frame + (if r.flushed.Some? then 1 else 0)
    ensures r.Advanced? && Inv(cfg, s) ==> Inv(cfg, r.next)
    ensures r.Advanced? ==> forall c :: Count(s.grid, c) <= Count(r.next.grid, c)
  {
    if bin > s.prevTimeBin then
      var out := EmitFrame(s.dims, s.grid, s.points, s.satellites, s.frame, title);
      Place(cfg, AfterFlush(s, bin), p, Some(out))
    else Place(cfg, s, p, None)
  }

  /** One split sentence. RMC records the date (field 9, which must exist); GSV
      stores satellites; a fix sentence is counted; everything else, and any
      sentence with fewer than two fields, is skipped. */
  function Step(cfg: Config, s: State, p: seq<string>): (r: StepResult)
    requires ValidConfig(cfg)
    ensures r.Ignored? <==> |p| < 2 || (p[0] != RMC && p[0] != GSV && !IsFixSentence(p))
    ensures r.Fatal? ==> r.failure in {IndexOutOfBounds, NumberFormat, UnparsableTimestamp, DivisionByZero}
    ensures !r.Ignored? && r.flushed.Some? ==> IsFixSentence(p) && r.flushed.value.number == s.frame
    ensures !r.Ignored? && r.flushed.Some? ==> Flushes(s, r.flushed.value)
    ensures r.Advanced? ==> r.next.dims == s.dims && r.next.prevTimeBin >= s.prevTimeBin
    ensures r.Advanced? ==> r.next.frame == s.frame + (if r.flushed.Some? then 1 else 0)
    ensures r.Advanced? && Inv(cfg, s) ==> Inv(cfg, r.next)
    ensures r.Advanced? ==> forall c :: Count(s.grid, c) <= Count(r.next.grid, c)
  {
    if |p| < 2 then Ignored
    else if p[0] == RMC then
      if |p| < 10 then Fatal(IndexOutOfBounds, None) else Advanced(s.(date := p[9]), None)
    else if p[0] == GSV then
      StoreSatsKeyed(s.satellites, GsvRecords(p));
      Advanced(s.(satellites := StoreSats(s.satellites, GsvRecords(p))), None)
    else if !IsFixSentence(p) then Ignored
    else Fix(cfg, s, p)
  }

  /** One raw input line: a line without `*` is skipped; otherwise the text
      before the last `*` is split on commas. */
  function StepLine(cfg: Config, s: State, line: string): (r: StepResult)
    requires ValidConfig(cfg)
    ensures '*' !in line ==> r.Ignored?
    ensures !r.Ignored? && r.flushed.Some? ==> Flushes(s, r.flushed.value)
    ensures r.Advanced? ==> r.next.dims == s.dims && r.next.prevTimeBin >= s.prevTimeBin
    ensures r.Advanced? ==> r.next.frame == s.frame + (if r.flushed.Some? then 1 else 0)
    ensures r.Advanced? && Inv(cfg, s) ==> Inv(cfg, r.next)
    ensures r.Advanced? ==> forall c :: Count(s.grid, c) <= Count(r.next.grid, c)
  {
    match DecodeLine(line)
    case None => Ignored
    case Some(p) => Step(cfg, s, p)
  }

  /** The frame a step wrote, as a list of zero or one frames. */
  function Written(out: Option<FrameFiles>): seq<FrameFiles>
  {
    if out.Some? then [out.value] else []
  }

  /** The loop over the remaining input: the frames written, in order, and the
      exception that ended it, if any. At the end of the input nothing more is
      written: the frame in progress is dropped. On an exception the final
      state is the one before the failing line. */
  datatype RunResult = RunResult(final: State, frames: seq<FrameFiles>, failure: Option<Failure>)

  function Run(cfg: Config, s: State, lines: seq<string>): (r: RunResult)
    requires ValidConfig(cfg)
    ensures r.failure.Some? ==> r.failure.value in {IndexOutOfBounds, NumberFormat, UnparsableTimestamp, DivisionByZero}
    ensures r.failure.None? ==> |r.frames| <= |lines|
    decreases |lines|
  {
    if |lines| == 0 then RunResult(s, [], None)
    else
      match StepLine(cfg, s, lines[0])
      case Ignored => Run(cfg, s, lines[1..])
      case Fatal(e, out) => RunResult(s, Written(out), Some(e))
      case Advanced(next, out) =>
        var rest := Run(cfg, next, lines[1..]);
        RunResult(rest.final, Written(out) + rest.frames, rest.failure)
  }

  /** What the converter leaves behind for a whole input: the frames it wrote and
      the exception it stopped with, if any. */
  datatype Outcome = Outcome(frames: seq<FrameFiles>, failure: Option<Failure>)

  function Convert(cfg: Config, lines: seq<string>): (r: Outcome)
    requires ValidConfig(cfg)
    ensures r.failure == Some(NegativeArraySize) <==> DimsOf(cfg.box).rows < 0 || DimsOf(cfg.box).cols < 0
    ensures r.failure == Some(NegativeArraySize) ==> r.frames == []
  {
    match Init(cfg)
    case Err(e) => Outcome([], Some(e))
    case Ok(s) =>
      var run := Run(cfg, s, lines);
      Outcome(run.frames, run.failure)
  }
}

=== FILE: movie_props.dfy ===
/** Properties of the converter's loop: what each kind of sentence does to the
    state, when frames are flushed and what they contain, and what a whole run
    produces. */
module MovieProperties {
  import opened Basics
  import opened JavaNum
  import opened JavaText
  import opened Nmea
  import opened Geometry
  import opened Frames
  import opened Movie

  // ---------------------------------------------------------------- lines and sentences

  /** Only the text before the last `*` matters, and it is split on commas. */
  lemma StepLineIgnoresChecksum(cfg: Config, s: State, body: string, checksum: string)
    requires ValidConfig(cfg) && '*' !in checksum
    ensures StepLine(cfg, s, body + "*" + checksum) == Step(cfg, s, Split(body))
  {
    DecodeIgnoresChecksum(body, checksum);
  }

  /** `split` drops trailing empty fields, so a GGA sentence whose fields from
      position 8 on are all empty has fewer than nine fields and is skipped,
      however many commas it carries. */
  lemma EmptyTailFixIsSkipped(cfg: Config, s: State, fs: seq<string>, checksum: string)
    requires ValidConfig(cfg) && '*' !in checksum
    requires |fs| >= 1 && fs[0] == GGA && forall k :: 0 <= k < |fs| ==> ',' !in fs[k]
    requires forall k :: 8 <= k < |fs| ==> fs[k] == ""
    ensures StepLine(cfg, s, Join(fs) + "*" + checksum) == Ignored
  {
    StepLineIgnoresChecksum(cfg, s, Join(fs), checksum);
    SplitJoinDropsEmptyTail(fs);
    var p := Split(Join(fs));
    assert |p| < 9 && p[0] == GGA;
    SentenceNamesDiffer();
  }

  /** Splitting comma-joined fields that start with a non-empty one gives the
      fields without their empty tail, still starting with the first field. */
  lemma SplitJoinDropsEmptyTail(fs: seq<string>)
    requires |fs| >= 1 && fs[0] != "" && forall k :: 0 <= k < |fs| ==> ',' !in fs[k]
    ensures Split(Join(fs)) == DropTrailingEmpty(fs)
    ensures |Split(Join(fs))| >= 1 && Split(Join(fs))[0] == fs[0]
  {
    PiecesJoin(fs);
    assert Join(fs) != "" by {
      if |fs| > 1 {
        assert Join(fs) == Join(fs[..|fs| - 1]) + "," + fs[|fs| - 1];
      }
    }
  }

  /** An RMC sentence records field 9 as the date and changes nothing else; with
      fewer than ten fields reading it throws. */
  lemma RmcRecordsDateOnly(cfg: Config, s: State, p: seq<string>)
    requires ValidConfig(cfg) && |p| >= 2 && p[0] == RMC
    ensures var r := Step(cfg, s, p);
            && (r.Advanced? <==> |p| >= 10)
            && (r.Advanced? ==> r.next == s.(date := p[9]) && r.flushed.None?)
            && (r.Fatal? ==> r.failure == IndexOutOfBounds && r.flushed.None?)
  {
  }

  /** A GSV sentence changes only the satellite map: a satellite is present
      afterwards iff it was before or a readable record reports it, the last
      readable record for it wins, and an unreadable record is skipped without
      affecting the others. */
  lemma GsvStoresSatellites(cfg: Config, s: State, p: seq<string>, id: int)
    requires ValidConfig(cfg) && |p| >= 2 && p[0] == GSV
    ensures var r := Step(cfg, s, p);
            var recs := GsvRecords(p);
            && r.Advanced? && r.flushed.None?
            && r.next == s.(satellites := r.next.satellites)
            && (id in r.next.satellites <==> id in s.satellites || exists j :: Reports(recs, j, id))
            && (forall j :: Reports(recs, j, id) && (forall k :: j < k ==> !Reports(recs, k, id))
                            ==> r.next.satellites[id] == recs[j].value)
            && ((forall j :: !Reports(recs, j, id)) && id in s.satellites
                ==> r.next.satellites[id] == s.satellites[id])
  {
    GsvStep(cfg, s, p);
    StoreSatsLastWins(s.satellites, GsvRecords(p), id);
  }

  /** The three sentence names differ. */
  lemma SentenceNamesDiffer()
    ensures GGA != RMC && GGA != GSV && GSV != RMC
  {
    assert GGA[3] != RMC[3] && GGA[4] != GSV[4] && GSV[3] != RMC[3];
  }

  /** A fix sentence is handled by `Fix`. */
  lemma FixStep(cfg: Config, s: State, p: seq<string>)
    requires ValidConfig(cfg) && IsFixSentence(p)
    ensures Step(cfg, s, p) == Fix(cfg, s, p)
  {
    SentenceNamesDiffer();
  }

  /** A GSV sentence stores its records and nothing else. */
  lemma GsvStep(cfg: Config, s: State, p: seq<string>)
    requires ValidConfig(cfg) && |p| >= 2 && p[0] == GSV
    ensures Step(cfg, s, p) == Advanced(s.(satellites := StoreSats(s.satellites, GsvRecords(p))), None)
  {
    SentenceNamesDiffer();
  }

  /** A group with an unreadable field is skipped: the GSV sentence stores the
      same satellites as the sentence without that group, so the groups before
      and after it are still stored. */
  lemma GsvSkipsUnreadableGroup(cfg: Config, s: State, p: seq<string>, j: int)
    requires ValidConfig(cfg) && |p| >= 2 && p[0] == GSV
    requires 0 <= j < GsvRecordCount(|p|)
    requires ParseInt(p[j * 4 + 4]).None? || ParseDouble(p[j * 4 + 5]).None?
             || ParseDouble(p[j * 4 + 6]).None? || ParseDouble(p[j * 4 + 7]).None?
    ensures var recs := GsvRecords(p);
            Step(cfg, s, p).next.satellites == StoreSats(s.satellites, recs[..j] + recs[j + 1..])
  {
    GsvStep(cfg, s, p);
    UnreadableGroupSkipped(s.satellites, GsvRecords(p), j);
  }

  /** Two groups, the second with an unreadable SNR: only the first satellite
      is stored. */
  lemma GsvSecondGroupUnreadable(cfg: Config, s: State, p: seq<string>)
    requires ValidConfig(cfg) && |p| == 12 && p[0] == GSV
    requires p[4] == "7" && p[5] == "4" && p[6] == "9" && p[7] == "3" && p[11] == "x"
    ensures Step(cfg, s, p).next.satellites == s.satellites[7 := Sat(7, 4.0, 9.0, 3.0)]
  {
    GsvStep(cfg, s, p);
    SampleGroups(p);
    StoreReadableThenUnreadable(s.satellites, GsvRecords(p));
  }

  /** A two-group GSV line whose last field, the second SNR, is empty: `split`
      drops that field, eleven fields remain, so only one group is read and the
      first satellite is stored. */
  lemma GsvTrailingEmptySnr(cfg: Config, s: State, fs: seq<string>, checksum: string)
    requires ValidConfig(cfg) && '*' !in checksum
    requires |fs| == 12 && fs[0] == GSV && forall k :: 0 <= k < |fs| ==> ',' !in fs[k]
    requires fs[4] == "7" && fs[5] == "4" && fs[6] == "9" && fs[7] == "3" && fs[10] != "" && fs[11] == ""
    ensures StepLine(cfg, s, Join(fs) + "*" + checksum)
            == Advanced(s.(satellites := s.satellites[7 := Sat(7, 4.0, 9.0, 3.0)]), None)
  {
    StepLineIgnoresChecksum(cfg, s, Join(fs), checksum);
    SplitJoinDropsEmptyTail(fs);
    var p := fs[..11];
    assert Split(Join(fs)) == p by {
      assert DropTrailingEmpty(fs) == DropTrailingEmpty(p);
      assert p[10] != "";
    }
    GsvStep(cfg, s, p);
    SampleOneGroup(p);
    var recs := [Some(Sat(7, 4.0, 9.0, 3.0))];
    assert recs[..0] == [];
  }

  // ---------------------------------------------------------------- flushing

  /** The flush decision for a fix sentence with a readable timestamp: a frame
      is written iff the time bin is past the last one, whatever happens to the
      fix afterwards, and the frame written holds the whole grid, the frame's
      points and satellites, under the current frame number. */
  lemma FlushIffTimeBinAdvances(cfg: Config, s: State, p: seq<string>, ts: int)
    requires ValidConfig(cfg) && IsFixSentence(p) && cfg.frameLength != 0
    requires cfg.parseTimestamp(s.date + "-" + p[1]) == Some(ts)
    ensures var r := Step(cfg, s, p);
            && !r.Ignored?
            && (r.flushed.Some? <==> TimeBin(ts, cfg.frameLength).value > s.prevTimeBin)
            && (r.flushed.Some? ==>
                  r.flushed.value == EmitFrame(s.dims, s.grid, s.points, s.satellites, s.frame, cfg.formatTitle(ts)))
  {
    FlushedState(cfg, s, p, ts);
  }

  /** After a flush the next frame starts with no satellites and at most the
      triggering fix, under the next number and the new time bin; without one
      the frame bookkeeping stays as it was. */
  lemma FlushStartsNextFrame(cfg: Config, s: State, p: seq<string>, ts: int)
    requires ValidConfig(cfg) && IsFixSentence(p) && cfg.frameLength != 0
    requires cfg.parseTimestamp(s.date + "-" + p[1]) == Some(ts)
    requires Step(cfg, s, p).Advanced?
    ensures var r := Step(cfg, s, p);
            && (r.flushed.Some? ==>
                  && r.next.frame == s.frame + 1 && r.next.prevTimeBin == TimeBin(ts, cfg.frameLength).value
                  && r.next.satellites == map[]
                  && (r.next.points == [] || r.next.points == [Point(ReadFix(p).value.lat, ReadFix(p).value.lng)]))
            && (r.flushed.None? ==>
                  && r.next.frame == s.frame && r.next.prevTimeBin == s.prevTimeBin
                  && r.next.satellites == s.satellites
                  && (r.next.points == s.points
                      || r.next.points == s.points + [Point(ReadFix(p).value.lat, ReadFix(p).value.lng)]))
  {
    FlushedState(cfg, s, p, ts);
    var bin := TimeBin(ts, cfg.frameLength).value;
    if bin > s.prevTimeBin {
      var out := EmitFrame(s.dims, s.grid, s.points, s.satellites, s.frame, cfg.formatTitle(ts));
      PlacePoints(cfg, AfterFlush(s, bin), p, Some(out));
    } else {
      PlacePoints(cfg, s, p, None);
    }
  }

  /** Counting a fix adds at most that fix to the frame's points. */
  lemma PlacePoints(cfg: Config, s: State, p: seq<string>, out: Option<FrameFiles>)
    requires ValidConfig(cfg) && |p| >= 9 && Place(cfg, s, p, out).Advanced?
    ensures var r := Place(cfg, s, p, out);
            r.next.points == s.points || r.next.points == s.points + [Point(ReadFix(p).value.lat, ReadFix(p).value.lng)]
  {
  }

  /** The step of a fix sentence with a readable timestamp, unfolded: the fix is
      placed into the state after the flush, when there is one. */
  lemma FlushedState(cfg: Config, s: State, p: seq<string>, ts: int)
    requires ValidConfig(cfg) && IsFixSentence(p) && cfg.frameLength != 0
    requires cfg.parseTimestamp(s.date + "-" + p[1]) == Some(ts)
    ensures var bin := TimeBin(ts, cfg.frameLength).value;
            Step(cfg, s, p)
            == if bin > s.prevTimeBin
               then Place(cfg, AfterFlush(s, bin), p,
                          Some(EmitFrame(s.dims, s.grid, s.points, s.satellites, s.frame, cfg.formatTitle(ts))))
               else Place(cfg, s, p, None)
  {
    FixStep(cfg, s, p);
    var bin := TimeBin(ts, cfg.frameLength).value;
    assert TimeBin(ts, cfg.frameLength) == Ok(bin);
  }

  /** Before any RMC sentence the date is empty, and a parser that needs a date
      rejects the timestamp: the fix is fatal and nothing is written. */
  lemma UndatedFixIsFatal(cfg: Config, s: State, p: seq<string>)
    requires ValidConfig(cfg) && IsFixSentence(p) && s.date == ""
    requires forall time :: cfg.parseTimestamp("-" + time).None?
    ensures Step(cfg, s, p) == Fatal(UnparsableTimestamp, None)
  {
    assert s.date + "-" + p[1] == "-" + p[1];
  }

  // ---------------------------------------------------------------- counting

  /** The state a fix is counted into: after the flush, if there was one. */
  function Base(cfg: Config, s: State, p: seq<string>): State
    requires ValidConfig(cfg) && IsFixSentence(p)
  {
    match cfg.parseTimestamp(s.date + "-" + p[1])
    case None => s
    case Some(ts) =>
      match TimeBin(ts, cfg.frameLength)
      case Err(_) => s
      case Ok(bin) => if bin > s.prevTimeBin then AfterFlush(s, bin) else s
  }

  /** A fix sentence that does not end the run had a readable timestamp and a
      non-zero frame length. */
  lemma NonFatalFixHasTime(cfg: Config, s: State, p: seq<string>)
    requires ValidConfig(cfg) && IsFixSentence(p) && !Step(cfg, s, p).Fatal?
    ensures cfg.parseTimestamp(s.date + "-" + p[1]).Some? && cfg.frameLength != 0
  {
    FixStep(cfg, s, p);
    match cfg.parseTimestamp(s.date + "-" + p[1])
    case None =>
    case Some(_) =>
  }

  /** Once the timestamp is read, a fix sentence is counted into the state left
      by the flush, if any: the same grid, and the points emptied by a flush. */
  lemma PlaceAfterBase(cfg: Config, s: State, p: seq<string>)
    requires ValidConfig(cfg) && IsFixSentence(p)
    requires cfg.parseTimestamp(s.date + "-" + p[1]).Some? && cfg.frameLength != 0
    ensures Step(cfg, s, p) == Place(cfg, Base(cfg, s, p), p, Step(cfg, s, p).flushed)
    ensures Base(cfg, s, p).grid == s.grid && Base(cfg, s, p).dims == s.dims
    ensures Base(cfg, s, p).points == (if Step(cfg, s, p).flushed.Some? then [] else s.points)
  {
    var ts := cfg.parseTimestamp(s.date + "-" + p[1]).value;
    FlushedState(cfg, s, p, ts);
    var bin := TimeBin(ts, cfg.frameLength).value;
    assert TimeBin(ts, cfg.frameLength) == Ok(bin);
    if bin > s.prevTimeBin {
      assert Base(cfg, s, p) == AfterFlush(s, bin);
    } else {
      assert Base(cfg, s, p) == s;
    }
  }

  /** A fix the filters reject changes no counter and adds no point; the flush
      before the filters still happens, so the frame may advance. */
  lemma RejectedFixChangesNoCounter(cfg: Config, s: State, p: seq<string>)
    requires ValidConfig(cfg) && IsFixSentence(p)
    requires ReadFix(p).Ok? && !Admits(cfg, ReadFix(p).value)
    requires !Step(cfg, s, p).Fatal?
    ensures var r := Step(cfg, s, p);
            && r.Advanced? && r.next.grid == s.grid
            && r.next.points == (if r.flushed.Some? then [] else s.points)
  {
    NonFatalFixHasTime(cfg, s, p);
    PlaceAfterBase(cfg, s, p);
    var b := Base(cfg, s, p);
    assert Step(cfg, s, p) == Advanced(b, Step(cfg, s, p).flushed);
  }

  /** An admitted fix that lands in the array increments exactly its own cell by
      one (an untouched cell becomes 1) and is appended to the current frame's
      points; the fix that triggered a flush is the new frame's first point. */
  lemma AcceptedFixHitsOneCell(cfg: Config, s: State, p: seq<string>)
    requires ValidConfig(cfg) && IsFixSentence(p)
    requires ReadFix(p).Ok? && Admits(cfg, ReadFix(p).value)
    requires !Step(cfg, s, p).Fatal?
    ensures var r := Step(cfg, s, p);
            var fix := ReadFix(p).value;
            var c := BinOf(cfg.box, s.dims, fix.lat, fix.lng);
            && r.Advanced? && InGrid(s.dims, c)
            && Count(r.next.grid, c) == Count(s.grid, c) + 1
            && (forall other :: other != c ==> Count(r.next.grid, other) == Count(s.grid, other))
            && r.next.points == (if r.flushed.Some? then [] else s.points) + [Point(fix.lat, fix.lng)]
  {
    NonFatalFixHasTime(cfg, s, p);
    PlaceAfterBase(cfg, s, p);
    var b := Base(cfg, s, p);
    var fix := ReadFix(p).value;
    var c := BinOf(cfg.box, s.dims, fix.lat, fix.lng);
    assert InGrid(s.dims, c);
    assert Step(cfg, s, p) == Advanced(b.(grid := Hit(b.grid, c), points := b.points + [Point(fix.lat, fix.lng)]),
                                       Step(cfg, s, p).flushed);
  }

  /** With both box corners on bin boundaries, a readable fix never indexes
      outside the counter array: the line is processed without an exception. */
  lemma AlignedBoxNeverOverruns(cfg: Config, s: State, p: seq<string>)
    requires Inv(cfg, s) && s.dims == DimsOf(cfg.box) && Aligned(cfg.box) && IsFixSentence(p)
    requires cfg.parseTimestamp(s.date + "-" + p[1]).Some? && cfg.frameLength != 0
    requires ReadFix(p).Ok?
    ensures Step(cfg, s, p).Advanced?
  {
    var fix := ReadFix(p).value;
    if InBox(cfg.box, fix.lat, fix.lng) {
      AlignedBoxBinsInGrid(cfg.box, fix.lat, fix.lng);
    }
    assert Base(cfg, s, p).dims == DimsOf(cfg.box);
    PlaceAfterBase(cfg, s, p);
  }

  // ---------------------------------------------------------------- written frames

  /** What every written frame satisfies: a heat map with one line per cell
      of an array of shape `d`, whose counts are -1 or at least 1, points inside the box, satellites
      filed under their own ids, and a plot overlaying the point files of the
      up to four most recent frames, ending with its own. */
  predicate WellFormedFrame(cfg: Config, d: Dims, f: FrameFiles)
    requires ValidConfig(cfg)
  {
    && f.number >= 1
    && |f.heatMap| == d.rows * d.cols
    && (forall k :: 0 <= k < |f.heatMap| ==> f.heatMap[k].count == -1 || f.heatMap[k].count >= 1)
    && (forall k :: 0 <= k < |f.points| ==> InBox(cfg.box, f.points[k].lat, f.points[k].lng))
    && Keyed(f.satellites)
    && |Overlays(f.plot)| == |RecentFrames(f.number)|
    && (forall k :: 0 <= k < |RecentFrames(f.number)| ==>
          Overlays(f.plot)[k] == PointsFile(RecentFrames(f.number)[k]))
  }

  /** Any frame flushed from a reachable state is well formed. */
  lemma FlushedFrameWellFormed(cfg: Config, s: State, f: FrameFiles)
    requires Inv(cfg, s) && Flushes(s, f)
    ensures WellFormedFrame(cfg, s.dims, f)
  {
    var title :| f == EmitFrame(s.dims, s.grid, s.points, s.satellites, s.frame, title);
    HeatMapSize(s.dims, s.grid);
    HeatMapCountsValid(s.dims, s.grid);
    PlotReferencesRecentFrames(s.frame, title);
  }

  /** Each heat-map count is at most the corresponding count of `b`. */
  predicate AtMost(a: seq<HeatLine>, b: seq<HeatLine>)
  {
    |a| == |b| && forall i :: 0 <= i < |a| ==> a[i].count <= b[i].count
  }

  /** Counters that only grow give heat maps whose counts only grow: a null
      counter's -1 is below any counter that exists. */
  lemma HeatMapMonotone(d: Dims, g1: Counters, g2: Counters)
    requires d.rows >= 0 && d.cols >= 0 && GridInv(d, g1) && GridInv(d, g2)
    requires forall c :: Count(g1, c) <= Count(g2, c)
    ensures AtMost(HeatMap(d, g1), HeatMap(d, g2))
  {
    HeatMapSize(d, g1);
    HeatMapSize(d, g2);
    forall k | 0 <= k < |HeatMap(d, g1)|
      ensures HeatMap(d, g1)[k].count <= HeatMap(d, g2)[k].count
    {
      var j, i := HeatMapLineAt(d, g1, k);
      HeatMapAt(d, g2, j, i);
      assert (j, i) in g1 ==> g1[(j, i)] >= 1 && Count(g1, (j, i)) <= Count(g2, (j, i)) && (j, i) in g2;
    }
  }

  lemma AtMostTransitive(a: seq<HeatLine>, b: seq<HeatLine>, c: seq<HeatLine>)
    requires AtMost(a, b) && AtMost(b, c)
    ensures AtMost(a, c)
  {
  }

  // ---------------------------------------------------------------- runs

  /** Frames are written with consecutive numbers starting at the current one;
      without an exception, the frame in progress is numbered one past the last
      frame written. */
  lemma {:induction false} RunFrameNumbers(cfg: Config, s: State, lines: seq<string>)
    requires ValidConfig(cfg)
    ensures var r := Run(cfg, s, lines);
            && Numbered(r.frames, s.frame)
            && r.final.frame <= s.frame + |r.frames| <= r.final.frame + 1
            && (r.failure.None? ==> r.final.frame == s.frame + |r.frames|)
    decreases |lines|
  {
    if |lines| > 0 {
      var step := StepLine(cfg, s, lines[0]);
      StepNumbers(cfg, s, lines[0]);
      match step
      case Ignored =>
        RunFrameNumbers(cfg, s, lines[1..]);
      case Fatal(e, flushed) =>
        assert Run(cfg, s, lines) == RunResult(s, Written(flushed), Some(e));
      case Advanced(next, flushed) =>
        var rest := Run(cfg, next, lines[1..]);
        RunFrameNumbers(cfg, next, lines[1..]);
        assert Run(cfg, s, lines) == RunResult(rest.final, Written(flushed) + rest.frames, rest.failure);
        NumberedConcat(Written(flushed), rest.frames, s.frame);
    }
  }

  /** The frames a step writes are numbered from the current frame, and a step
      that goes on continues the numbering after them. */
  lemma StepNumbers(cfg: Config, s: State, line: string)
    requires ValidConfig(cfg)
    ensures var r := StepLine(cfg, s, line);
            && (!r.Ignored? ==> Numbered(Written(r.flushed), s.frame))
            && (r.Advanced? ==> r.next.frame == s.frame + |Written(r.flushed)|)
  {
  }

  /** The frames are numbered consecutively from `first`. */
  predicate Numbered(fs: seq<FrameFiles>, first: int)
  {
    forall k :: 0 <= k < |fs| ==> fs[k].number == first + k
  }

  lemma NumberedConcat(a: seq<FrameFiles>, b: seq<FrameFiles>, first: int)
    requires Numbered(a, first) && Numbered(b, first + |a|)
    ensures Numbered(a + b, first)
  {
    forall k | 0 <= k < |a + b|
      ensures (a + b)[k].number == first + k
    {
      if k >= |a| {
        assert (a + b)[k] == b[k - |a|];
      }
    }
  }

  /** A run from a reachable state: the invariant holds at the end, the time bin
      never decreases, and no counter is ever reset. */
  lemma {:induction false} RunKeepsInvariants(cfg: Config, s: State, lines: seq<string>)
    requires Inv(cfg, s)
    ensures var r := Run(cfg, s, lines);
            && Inv(cfg, r.final) && r.final.dims == s.dims && r.final.prevTimeBin >= s.prevTimeBin
            && (forall c :: Count(s.grid, c) <= Count(r.final.grid, c))
    decreases |lines|
  {
    if |lines| > 0 {
      var step := StepLine(cfg, s, lines[0]);
      if step.Ignored? {
        RunKeepsInvariants(cfg, s, lines[1..]);
      } else if step.Advanced? {
        var next := step.next;
        RunKeepsInvariants(cfg, next, lines[1..]);
        var rest := Run(cfg, next, lines[1..]);
        assert Run(cfg, s, lines).final == rest.final;
        assert forall c :: Count(s.grid, c) <= Count(next.grid, c) <= Count(rest.final.grid, c);
      }
    }
  }

  /** Every frame in the list is well formed. */
  predicate AllWellFormed(cfg: Config, d: Dims, frames: seq<FrameFiles>)
    requires ValidConfig(cfg)
  {
    forall k :: 0 <= k < |frames| ==> WellFormedFrame(cfg, d, frames[k])
  }

  lemma AllWellFormedPrepend(cfg: Config, d: Dims, out: Option<FrameFiles>, frames: seq<FrameFiles>)
    requires ValidConfig(cfg) && AllWellFormed(cfg, d, frames)
    requires out.Some? ==> WellFormedFrame(cfg, d, out.value)
    ensures AllWellFormed(cfg, d, Written(out) + frames)
  {
    var all := Written(out) + frames;
    forall k | 0 <= k < |all|
      ensures WellFormedFrame(cfg, d, all[k])
    {
      if k >= |Written(out)| {
        assert all[k] == frames[k - |Written(out)|];
      }
    }
  }

  /** Every frame a run from a reachable state writes is well formed. */
  lemma {:induction false} RunFramesWellFormed(cfg: Config, s: State, lines: seq<string>)
    requires Inv(cfg, s)
    ensures AllWellFormed(cfg, s.dims, Run(cfg, s, lines).frames)
    decreases |lines|
  {
    if |lines| > 0 {
      match StepLine(cfg, s, lines[0])
      case Ignored =>
        RunFramesWellFormed(cfg, s, lines[1..]);
      case Fatal(_, flushed) =>
        if flushed.Some? {
          FlushedFrameWellFormed(cfg, s, flushed.value);
        }
        AllWellFormedPrepend(cfg, s.dims, flushed, []);
        assert Run(cfg, s, lines).frames == Written(flushed) + [];
      case Advanced(next, flushed) =>
        if flushed.Some? {
          FlushedFrameWellFormed(cfg, s, flushed.value);
        }
        RunFramesWellFormed(cfg, next, lines[1..]);
        var rest := Run(cfg, next, lines[1..]);
        AllWellFormedPrepend(cfg, s.dims, flushed, rest.frames);
        assert Run(cfg, s, lines).frames == Written(flushed) + rest.frames;
    }
  }

  /** The heat maps of a list of frames, in order. */
  function HeatMaps(frames: seq<FrameFiles>): (maps: seq<seq<HeatLine>>)
    ensures |maps| == |frames| && forall k :: 0 <= k < |frames| ==> maps[k] == frames[k].heatMap
  {
    seq(|frames|, k requires 0 <= k < |frames| => frames[k].heatMap)
  }

  /** Heat maps between `low` and `high`, each at most the next. */
  predicate Cumulative(low: seq<HeatLine>, maps: seq<seq<HeatLine>>, high: seq<HeatLine>)
  {
    && (forall k :: 0 <= k < |maps| ==> AtMost(low, maps[k]) && AtMost(maps[k], high))
    && (forall k, l :: 0 <= k < l < |maps| ==> AtMost(maps[k], maps[l]))
  }

  lemma CumulativePrepend(low: seq<HeatLine>, mid: seq<HeatLine>, high: seq<HeatLine>, maps: seq<seq<HeatLine>>)
    requires AtMost(low, mid) && AtMost(mid, high) && Cumulative(mid, maps, high)
    ensures Cumulative(low, maps, high) && Cumulative(low, [low] + maps, high)
  {
    forall k | 0 <= k < |maps|
      ensures AtMost(low, maps[k])
    {
      AtMostTransitive(low, mid, maps[k]);
    }
    AtMostTransitive(low, mid, high);
    var all := [low] + maps;
    forall k, l | 0 <= k < l < |all|
      ensures AtMost(all[k], all[l])
    {
      assert all[l] == maps[l - 1];
      if k > 0 {
        assert all[k] == maps[k - 1];
      }
    }
    forall k | 0 <= k < |all|
      ensures AtMost(low, all[k]) && AtMost(all[k], high)
    {
      if k > 0 {
        assert all[k] == maps[k - 1];
      }
    }
  }

  /** One step of the cumulative argument: a frame flushed from grid `g0`
      followed by frames that lie between `g1` and `g2`, where the grids only
      grow. */
  lemma CumulativeStep(d: Dims, g0: Counters, g1: Counters, g2: Counters, out: Option<FrameFiles>, frames: seq<FrameFiles>)
    requires d.rows >= 0 && d.cols >= 0 && GridInv(d, g0) && GridInv(d, g1) && GridInv(d, g2)
    requires forall c :: Count(g0, c) <= Count(g1, c) <= Count(g2, c)
    requires out.Some? ==> out.value.heatMap == HeatMap(d, g0)
    requires Cumulative(HeatMap(d, g1), HeatMaps(frames), HeatMap(d, g2))
    ensures Cumulative(HeatMap(d, g0), HeatMaps(Written(out) + frames), HeatMap(d, g2))
  {
    var low, mid, high := HeatMap(d, g0), HeatMap(d, g1), HeatMap(d, g2);
    HeatMapMonotone(d, g0, g1);
    HeatMapMonotone(d, g1, g2);
    CumulativePrepend(low, mid, high, HeatMaps(frames));
    if out.Some? {
      assert HeatMaps(Written(out) + frames) == [low] + HeatMaps(frames);
    } else {
      assert Written(out) + frames == frames;
    }
  }

  /** The histogram is cumulative: every frame's heat map counts at least what the
      starting grid counts and at most what the final grid counts, and a later
      frame counts at least what an earlier one does, cell by cell. */
  lemma {:induction false} RunHeatMapsCumulative(cfg: Config, s: State, lines: seq<string>)
    requires Inv(cfg, s)
    ensures var r := Run(cfg, s, lines);
            Cumulative(HeatMap(s.dims, s.grid), HeatMaps(r.frames), HeatMap(s.dims, r.final.grid))
    decreases |lines|
  {
    if |lines| > 0 {
      match StepLine(cfg, s, lines[0])
      case Ignored =>
        RunHeatMapsCumulative(cfg, s, lines[1..]);
      case Fatal(_, _) =>
        FatalCumulative(cfg, s, lines);
      case Advanced(next, _) =>
        RunHeatMapsCumulative(cfg, next, lines[1..]);
        AdvancedCumulative(cfg, s, lines);
    }
  }

  /** A line that ends the run with an exception writes at most the frame it
      flushed, whose heat map is that of the current grid. */
  lemma FatalCumulative(cfg: Config, s: State, lines: seq<string>)
    requires Inv(cfg, s) && |lines| > 0 && StepLine(cfg, s, lines[0]).Fatal?
    ensures var r := Run(cfg, s, lines);
            Cumulative(HeatMap(s.dims, s.grid), HeatMaps(r.frames), HeatMap(s.dims, r.final.grid))
  {
    var step := StepLine(cfg, s, lines[0]);
    CumulativeStep(s.dims, s.grid, s.grid, s.grid, step.flushed, []);
    assert Run(cfg, s, lines) == RunResult(s, Written(step.flushed) + [], Some(step.failure));
  }

  /** The step case of `RunHeatMapsCumulative`: a line that advances the state
      puts its flushed frame, if any, in front of the rest of the run. */
  lemma AdvancedCumulative(cfg: Config, s: State, lines: seq<string>)
    requires Inv(cfg, s) && |lines| > 0 && StepLine(cfg, s, lines[0]).Advanced?
    requires var next := StepLine(cfg, s, lines[0]).next;
             var rest := Run(cfg, next, lines[1..]);
             Cumulative(HeatMap(next.dims, next.grid), HeatMaps(rest.frames), HeatMap(next.dims, rest.final.grid))
    ensures var r := Run(cfg, s, lines);
            Cumulative(HeatMap(s.dims, s.grid), HeatMaps(r.frames), HeatMap(s.dims, r.final.grid))
  {
    var next, flushed := StepLine(cfg, s, lines[0]).next, StepLine(cfg, s, lines[0]).flushed;
    var rest := Run(cfg, next, lines[1..]);
    RunKeepsInvariants(cfg, next, lines[1..]);
    CumulativeStep(s.dims, s.grid, next.grid, rest.final.grid, flushed, rest.frames);
    assert Run(cfg, s, lines) == RunResult(rest.final, Written(flushed) + rest.frames, rest.failure);
  }

  /** A whole conversion writes frames numbered 1, 2, 3, ... without gaps, each
      of them well formed. */
  lemma ConvertWritesNumberedFrames(cfg: Config, lines: seq<string>)
    requires ValidConfig(cfg)
    ensures var r := Convert(cfg, lines);
            && (forall k :: 0 <= k < |r.frames| ==> r.frames[k].number == k + 1)
            && AllWellFormed(cfg, DimsOf(cfg.box), r.frames)
  {
    if Init(cfg).Ok? {
      RunFrameNumbers(cfg, Init(cfg).value, lines);
      RunFramesWellFormed(cfg, Init(cfg).value, lines);
    }
  }
}

=== FILE: nmea.dfy ===
/** NMEA 0183 sentence handling: cutting a line into fields, converting the
    `ddmm.mmm` angle encoding, reading satellites-in-view records and the
    position fields of a fix sentence. */
module Nmea {
  import opened Basics
  import opened JavaNum
  import opened JavaText

  const RMC: string := "$GPRMC"
  const GSV: string := "$GPGSV"
  const GGA: string := "$GPGGA"

  // ---------------------------------------------------------------- line decoding

  /** The fields of a sentence: the text before the last `*` split on commas.
      A line without any `*` has no checksum delimiter and yields nothing. */
  function DecodeLine(line: string): (r: Option<seq<string>>)
    ensures r.None? <==> '*' !in line
    ensures r.Some? ==> exists i :: 0 <= i < |line| && line[i] == '*' && '*' !in line[i + 1..]
                                    && r.value == Split(line[..i])
  {
    var i := LastIndexOf(line, '*');
    if i < 0 then None
    else
      Some(Split(line[..i]))
  }

  /** Only the text before the last `*` matters: whatever checksum follows it
      (one without a `*`) leaves the fields unchanged. */
  lemma DecodeIgnoresChecksum(body: string, checksum: string)
    requires '*' !in checksum
    ensures DecodeLine(body + "*" + checksum) == Some(Split(body))
  {
    var line := body + "*" + checksum;
    assert line[|body|] == '*';
    forall k | |body| < k < |line|
      ensures line[k] != '*'
    {
      assert line[k] == checksum[k - |body| - 1];
    }
    assert LastIndexOf(line, '*') == |body|;
    assert line[..|body|] == body;
  }

  // ---------------------------------------------------------------- angles

  /** `toDegrees`: NMEA `ddmm.mmm` (degrees times 100 plus minutes) to decimal
      degrees. The whole degrees come from an `(int)` cast, and the product
      `degrees * 100` is 32-bit `int` arithmetic. */
  function ToDegrees(degMin: real): (r: real)
    ensures 0.0 <= degMin < ANGLE_LIMIT ==>
              var d := (degMin / 100.0).Floor;
              r == d as real + (degMin - 100.0 * d as real) / 60.0
  {
    var degrees := D2I(degMin / 100.0);
    assert 0.0 <= degMin < ANGLE_LIMIT ==> degrees == (degMin / 100.0).Floor && Wrap32(degrees * 100) == degrees * 100 by {
      if 0.0 <= degMin < ANGLE_LIMIT {
        var d := (degMin / 100.0).Floor;
        assert 0 <= d < 20000000;
        assert Trunc(degMin / 100.0) == d;
      }
    }
    var minutes := degMin - Wrap32(degrees * 100) as real;
    degrees as real + minutes / 60.0
  }

  /** A hemisphere letter other than north/east flips the sign. */
  function Signed(degrees: real, negate: bool): real
  {
    if negate then -degrees else degrees
  }

  /** Below this magnitude neither the `(int)` cast nor `degrees * 100` overflows. */
  const ANGLE_LIMIT: real := 2000000000.0

  /** A well-formed `ddmm.mmm` value: non-negative, with fewer than 60 minutes. */
  predicate ValidDegMin(x: real)
  {
    0.0 <= x < ANGLE_LIMIT && x - 100.0 * (x / 100.0).Floor as real < 60.0
  }

  /** `toDegrees(5330.00) = 53.5`. */
  lemma ToDegreesExample()
    ensures ToDegrees(5330.0) == 53.5
  {
    assert (5330.0 / 100.0).Floor == 53;
  }

  /** Over well-formed values the conversion is monotonic. */
  lemma ToDegreesMonotonic(x: real, y: real)
    requires ValidDegMin(x) && ValidDegMin(y) && x <= y
    ensures ToDegrees(x) <= ToDegrees(y)
  {
    var dx, dy := (x / 100.0).Floor, (y / 100.0).Floor;
    assert dx <= dy;
    if dx < dy {
      assert ToDegrees(x) < dx as real + 1.0;
      assert dx as real + 1.0 <= dy as real <= ToDegrees(y);
    }
  }

  /** Minutes of 60 or more break monotonicity: `5399` converts to more than `5400`. */
  lemma ToDegreesNotMonotonicOnBadMinutes()
    ensures ToDegrees(5399.0) > ToDegrees(5400.0)
  {
    assert (5399.0 / 100.0).Floor == 53;
    assert (5400.0 / 100.0).Floor == 54;
  }

  // ---------------------------------------------------------------- satellites in view

  /** One satellite of a satellites-in-view sentence. */
  datatype Sat = Sat(id: int, elevation: real, azimuth: real, snr: real)

  /** The number of 4-field satellite groups a sentence of `fieldCount` fields
      is read for: `(fieldCount - 4) / 4` with Java's truncating division. Every
      field of every group lies inside the sentence, and one more group would not. */
  function GsvRecordCount(fieldCount: int): (n: int)
    ensures forall i :: 0 <= i < n ==> i * 4 + 7 < fieldCount
    ensures fieldCount >= 4 ==> n * 4 + 7 >= fieldCount
    ensures (n + 1) * 4 + 7 >= fieldCount
    ensures n <= 0 || n * 4 + 4 <= fieldCount
  {
    Quot(fieldCount - 4, 4)
  }

  /** Group `i` of a satellites-in-view sentence: id, elevation, azimuth and SNR
      in fields `4i+4 .. 4i+7`; nothing when any of them is not a number. */
  function ParseSat(p: seq<string>, i: nat): (r: Option<Sat>)
    requires i * 4 + 7 < |p|
    ensures r.None? <==> ParseInt(p[i * 4 + 4]).None? || ParseDouble(p[i * 4 + 5]).None?
                         || ParseDouble(p[i * 4 + 6]).None? || ParseDouble(p[i * 4 + 7]).None?
    ensures r.Some? ==> && r.value.id == ParseInt(p[i * 4 + 4]).value
                        && r.value.elevation == ParseDouble(p[i * 4 + 5]).value
                        && r.value.azimuth == ParseDouble(p[i * 4 + 6]).value
                        && r.value.snr == ParseDouble(p[i * 4 + 7]).value
  {
    match (ParseInt(p[i * 4 + 4]), ParseDouble(p[i * 4 + 5]), ParseDouble(p[i * 4 + 6]), ParseDouble(p[i * 4 + 7]))
    case (Some(id), Some(el), Some(az), Some(snr)) => Some(Sat(id, el, az, snr))
    case _ => None
  }

  /** The groups of a satellites-in-view sentence in order, as the loop over
      `i < (fieldCount - 4) / 4` reads them. */
  function GsvRecords(p: seq<string>): (recs: seq<Option<Sat>>)
    ensures |recs| == Max(GsvRecordCount(|p|), 0)
    ensures forall i :: 0 <= i < |recs| ==> recs[i] == ParseSat(p, i)
  {
    var n := Max(GsvRecordCount(|p|), 0);
    seq(n, i requires 0 <= i < n => ParseSat(p, i))
  }

  /** Record `j` is a readable record for satellite `id`. */
  predicate Reports(recs: seq<Option<Sat>>, j: int, id: int)
  {
    0 <= j < |recs| && recs[j].Some? && recs[j].value.id == id
  }

  /** The satellite map after storing the records in order, each readable record
      overwriting the entry for its id and an unreadable one skipped. */
  function StoreSats(sats: map<int, Sat>, recs: seq<Option<Sat>>): (r: map<int, Sat>)
    ensures sats.Keys <= r.Keys
    ensures forall id :: id in r && id !in sats ==> exists j :: Reports(recs, j, id)
    decreases |recs|
  {
    if |recs| == 0 then sats
    else
      var front := recs[..|recs| - 1];
      var m := StoreSats(sats, front);
      assert forall j, id :: Reports(front, j, id) ==> Reports(recs, j, id);
      match recs[|recs| - 1]
      case None => m
      case Some(sv) =>
        assert Reports(recs, |recs| - 1, sv.id);
        m[sv.id := sv]
  }

  /** Last write wins: after the records are stored, a satellite's entry is the
      last readable record with its id; a satellite no record reports keeps its
      old entry, or stays absent. */
  lemma {:induction false} StoreSatsLastWins(sats: map<int, Sat>, recs: seq<Option<Sat>>, id: int)
    ensures id in StoreSats(sats, recs) <==> id in sats || exists j :: Reports(recs, j, id)
    ensures forall j :: Reports(recs, j, id) && (forall k :: j < k ==> !Reports(recs, k, id))
                        ==> StoreSats(sats, recs)[id] == recs[j].value
    ensures (forall j :: !Reports(recs, j, id)) && id in sats
            ==> StoreSats(sats, recs)[id] == sats[id]
    decreases |recs|
  {
    if |recs| > 0 {
      var n := |recs|;
      var front := recs[..n - 1];
      var m := StoreSats(sats, front);
      var r := StoreSats(sats, recs);
      StoreSatsLastWins(sats, front, id);
      assert forall j :: j < n - 1 ==> (Reports(front, j, id) <==> Reports(recs, j, id));
      if Reports(recs, n - 1, id) {
        assert r[id] == recs[n - 1].value;
        forall j | Reports(recs, j, id) && (forall k :: j < k ==> !Reports(recs, k, id))
          ensures r[id] == recs[j].value
        {
          assert j == n - 1;
        }
      } else {
        assert id in r <==> id in m;
        assert id in r ==> r[id] == m[id];
        assert (exists j :: Reports(recs, j, id)) <==> (exists j :: Reports(front, j, id));
        forall j | Reports(recs, j, id) && (forall k :: j < k ==> !Reports(recs, k, id))
          ensures r[id] == recs[j].value
        {
          assert Reports(front, j, id);
        }
      }
    }
  }

  /** Storing a batch is storing its front, then its back. */
  lemma {:induction false} StoreSatsAppend(sats: map<int, Sat>, a: seq<Option<Sat>>, b: seq<Option<Sat>>)
    ensures StoreSats(sats, a + b) == StoreSats(StoreSats(sats, a), b)
    decreases |b|
  {
    if |b| == 0 {
      assert a + b == a;
    } else {
      var b' := b[..|b| - 1];
      assert (a + b)[..|a + b| - 1] == a + b';
      assert (a + b)[|a + b| - 1] == b[|b| - 1];
      StoreSatsAppend(sats, a, b');
    }
  }

  /** An unreadable group is skipped: storing the records is the same as
      storing them with that group removed, so the groups before and after it
      are stored as usual. */
  lemma UnreadableGroupSkipped(sats: map<int, Sat>, recs: seq<Option<Sat>>, j: int)
    requires 0 <= j < |recs| && recs[j].None?
    ensures StoreSats(sats, recs) == StoreSats(sats, recs[..j] + recs[j + 1..])
  {
    var front, back := recs[..j], recs[j + 1..];
    assert recs == (front + [None]) + back;
    StoreSatsAppend(sats, front + [None], back);
    StoreSatsAppend(sats, front, back);
    assert (front + [None])[..|front|] == front;
  }

  /** Every entry is filed under its own satellite id. */
  predicate Keyed(sats: map<int, Sat>)
  {
    forall id :: id in sats ==> sats[id].id == id
  }

  /** Storing records keeps every entry under its own id. */
  lemma {:induction false} StoreSatsKeyed(sats: map<int, Sat>, recs: seq<Option<Sat>>)
    ensures Keyed(sats) ==> Keyed(StoreSats(sats, recs))
    decreases |recs|
  {
    if |recs| > 0 {
      StoreSatsKeyed(sats, recs[..|recs| - 1]);
    }
  }

  // ---------------------------------------------------------------- fix sentences

  /** The position and satellite count of a fix sentence, in signed decimal degrees. */
  datatype Reading = Reading(lat: real, lng: real, satellites: int)

  /** Fields 2-5, 7 and 9 of a fix sentence, read in the order the converter reads
      them: latitude, hemisphere, longitude, hemisphere, satellite count,
      altitude. The altitude is parsed only for the exception it may throw. */
  function ReadFix(p: seq<string>): (r: Result<Reading>)
    requires |p| >= 9
    ensures r.Ok? <==> ParseDouble(p[2]).Some? && ParseDouble(p[4]).Some? && ParseInt(p[7]).Some?
                       && |p| >= 10 && ParseDouble(p[9]).Some?
    ensures r == Err(IndexOutOfBounds) <==> ParseDouble(p[2]).Some? && ParseDouble(p[4]).Some?
                                            && ParseInt(p[7]).Some? && |p| == 9
    ensures r.Err? ==> r.failure in {IndexOutOfBounds, NumberFormat}
    ensures r.Ok? ==> r.value.satellites == ParseInt(p[7]).value
    ensures r.Ok? ==> && r.value.lat == Signed(ToDegrees(ParseDouble(p[2]).value), p[3] == "S")
                      && r.value.lng == Signed(ToDegrees(ParseDouble(p[4]).value), p[5] == "W")
  {
    match (ParseDouble(p[2]), ParseDouble(p[4]), ParseInt(p[7]))
    case (Some(lat), Some(lng), Some(n)) =>
      if |p| < 10 then Err(IndexOutOfBounds)
      else if ParseDouble(p[9]).None? then Err(NumberFormat)
      else Ok(Reading(Signed(ToDegrees(lat), p[3] == "S"), Signed(ToDegrees(lng), p[5] == "W"), n))
    case _ => Err(NumberFormat)
  }

  /** The digit strings of the sample fix and the values they denote. */
  lemma SampleDigits()
    ensures AllDigits("5330") && DigitsValue("5330") == 5330
    ensures AllDigits("00600") && DigitsValue("00600") == 600
    ensures AllDigits("00") && DigitsValue("00") == 0
  {
    assert "5330"[..3] == "533" && "533"[..2] == "53" && "53"[..1] == "5" && "5"[..0] == "";
    assert "00600"[..4] == "0060" && "0060"[..3] == "006" && "006"[..2] == "00";
    assert "00"[..1] == "0" && "0"[..0] == "";
  }

  /** `5330.00` reads as 5330. */
  lemma SampleLatitudeText()
    ensures ParseDouble("5330.00") == Some(5330.0)
  {
    SampleLatitudeValue();
    ParseFixedPoint("5330", "00");
    assert "5330" + "." + "00" == "5330.00";
  }

  lemma SampleLatitudeValue()
    ensures AllDigits("5330") && AllDigits("00") && FixedValue("5330", "00") == 5330.0
  {
    SampleDigits();
  }

  /** `00600.00` reads as 600. */
  lemma SampleLongitudeText()
    ensures ParseDouble("00600.00") == Some(600.0)
  {
    SampleLongitudeValue();
    ParseFixedPoint("00600", "00");
    assert "00600" + "." + "00" == "00600.00";
  }

  lemma SampleLongitudeValue()
    ensures AllDigits("00600") && AllDigits("00") && FixedValue("00600", "00") == 600.0
  {
    SampleDigits();
  }

  /** `12.5` is a number. */
  lemma SampleHeightText()
    ensures ParseDouble("12.5").Some?
  {
    assert AllDigits("12") && AllDigits("5");
    ParseFixedPoint("12", "5");
    assert "12" + "." + "5" == "12.5";
  }

  /** `toDegrees(00600.00) = 6`. */
  lemma ToDegreesWholeDegrees()
    ensures ToDegrees(600.0) == 6.0
  {
    assert (600.0 / 100.0).Floor == 6;
  }

  /** A southern latitude and a western longitude: `5330.00,S` is -53.5 degrees
      and `00600.00,W` is -6.0 degrees. */
  lemma SouthWestFixExample(p: seq<string>)
    requires |p| == 10 && p[2] == "5330.00" && p[3] == "S" && p[4] == "00600.00" && p[5] == "W"
    requires p[7] == "08" && p[9] == "12.5"
    ensures ReadFix(p) == Ok(Reading(-53.5, -6.0, 8))
  {
    SampleLatitudeText();
    SampleLongitudeText();
    SampleHeightText();
    SampleSatelliteCount();
    ToDegreesExample();
    ToDegreesWholeDegrees();
  }

  /** `08` reads as 8. */
  lemma SampleSatelliteCount()
    ensures ParseInt("08") == Some(8)
  {
    assert "08"[..1] == "0" && "0"[..0] == "";
    assert AllDigits("08") && DigitsValue("08") == 8;
  }

  /** A readable record followed by an unreadable one stores the first only. */
  lemma StoreReadableThenUnreadable(sats: map<int, Sat>, recs: seq<Option<Sat>>)
    requires |recs| == 2 && recs[0].Some? && recs[1].None?
    ensures StoreSats(sats, recs) == sats[recs[0].value.id := recs[0].value]
  {
    var front := recs[..1];
    assert StoreSats(sats, recs) == StoreSats(sats, front);
    assert front[..0] == [] && front[0] == recs[0];
  }

  /** The records of a two-group sentence whose first group is `7,4,9,3` and
      whose second group has the non-number `x` as its SNR. */
  lemma SampleGroups(p: seq<string>)
    requires |p| == 12
    requires p[4] == "7" && p[5] == "4" && p[6] == "9" && p[7] == "3" && p[11] == "x"
    ensures var recs := GsvRecords(p);
            |recs| == 2 && recs[0] == Some(Sat(7, 4.0, 9.0, 3.0)) && recs[1].None?
  {
    assert GsvRecordCount(|p|) == 2 by {
      assert Quot(8, 4) == 2;
    }
    assert ParseDouble(p[11]).None? by {
      assert Trim("x") == "x";
      assert !DoubleChar('x');
    }
    SampleFirstGroup(p);
  }

  /** A one-group sentence: eleven fields hold exactly one group. */
  lemma SampleOneGroup(p: seq<string>)
    requires |p| == 11
    requires p[4] == "7" && p[5] == "4" && p[6] == "9" && p[7] == "3"
    ensures GsvRecords(p) == [Some(Sat(7, 4.0, 9.0, 3.0))]
  {
    assert GsvRecordCount(|p|) == 1 by {
      assert Quot(7, 4) == 1;
    }
    SampleFirstGroup(p);
  }

  lemma SampleFirstGroup(p: seq<string>)
    requires |p| >= 8
    requires p[4] == "7" && p[5] == "4" && p[6] == "9" && p[7] == "3"
    ensures ParseSat(p, 0) == Some(Sat(7, 4.0, 9.0, 3.0))
  {
    DigitGroup(p, 0, 7, 4, 9, 3);
  }

  /** A group of four one-digit fields. */
  lemma DigitGroup(p: seq<string>, i: nat, id: nat, el: nat, az: nat, snr: nat)
    requires i * 4 + 7 < |p|
    requires |p[i * 4 + 4]| == 1 && IsDigit(p[i * 4 + 4][0]) && p[i * 4 + 4][0] as int - '0' as int == id
    requires |p[i * 4 + 5]| == 1 && IsDigit(p[i * 4 + 5][0]) && p[i * 4 + 5][0] as int - '0' as int == el
    requires |p[i * 4 + 6]| == 1 && IsDigit(p[i * 4 + 6][0]) && p[i * 4 + 6][0] as int - '0' as int == az
    requires |p[i * 4 + 7]| == 1 && IsDigit(p[i * 4 + 7][0]) && p[i * 4 + 7][0] as int - '0' as int == snr
    ensures ParseSat(p, i) == Some(Sat(id, el as real, az as real, snr as real))
  {
    SingleDigitInt(p[i * 4 + 4], id);
    SingleDigit(p[i * 4 + 5], el);
    SingleDigit(p[i * 4 + 6], az);
    SingleDigit(p[i * 4 + 7], snr);
    GroupOfFields(p, i, Sat(id, el as real, az as real, snr as real));
  }

  /** A group whose four fields read as a satellite's values is that satellite. */
  lemma GroupOfFields(p: seq<string>, i: nat, sv: Sat)
    requires i * 4 + 7 < |p|
    requires ParseInt(p[i * 4 + 4]) == Some(sv.id) && ParseDouble(p[i * 4 + 5]) == Some(sv.elevation)
    requires ParseDouble(p[i * 4 + 6]) == Some(sv.azimuth) && ParseDouble(p[i * 4 + 7]) == Some(sv.snr)
    ensures ParseSat(p, i) == Some(sv)
  {
  }

  lemma SingleDigitInt(t: string, d: nat)
    requires |t| == 1 && IsDigit(t[0]) && t[0] as int - '0' as int == d
    ensures ParseInt(t) == Some(d)
  {
    assert t[..0] == "" && AllDigits(t);
    assert DigitsValue(t) == d;
  }

  lemma SingleDigit(t: string, d: nat)
    requires |t| == 1 && IsDigit(t[0]) && t[0] as int - '0' as int == d
    ensures ParseDouble(t) == Some(d as real)
  {
    ParseWholeNumber(t);
    assert t[..0] == "";
  }
}
